=== FILE: README.md ===
# config-template-python shared library, modelled in Dafny

This project models the shared library of the `config-template-python`
service template, `src/shared/`. It covers:

- the `retry` decorator;
- the `with_logger` call tracing and the `TracebackCleaner` formatter;
- the export of `--env_vars` pairs and the check for required action
  arguments;
- `is_json`;
- the Azure blob storage helpers. These are split in two: the client cache
  and teardown, and the file and folder operations over a blob container.

All of it is written as pure functions over immutable data. The outside
world becomes data:

- A wrapped function is the sequence of outcomes of its calls.
- A blob container and the local file system are maps from names to
  contents.
- A thread's tracing state is a value that is passed in and handed back.
- A log is the sequence of records emitted.

Modules:

- `Wrappers`: `Option` and `Result`.
- `Strings`: the `str` operations the library uses. These are `strip`,
  ASCII `lower`, `join`, and `split` on one character.
- `Retry`: `retry`, as a recursive reference `Loop` and as the `while` loop
  `RetryLoop`, proved equal.
- `Tracing`: `with_logger`. A decorated call is a tree of decorated
  children, and its log is checked against a replay of open labels.
- `Traceback`: frame filtering and `formatException`.
- `Repr`: Python's `repr` of a `str` and a `list[str]`, with its read-back.
- `Args`: `_parse_export_env_vars`, `validate_args_for_action`, and the
  action table of `src/args.py`.
- `Files`: `is_json`.
- `StorageClients`: `BlobServiceManager` and the client part of
  `with_container_setup_teardown`.
- `Storage`: `save_file`, `read_file`, `check_file`, `upload_file`,
  `download_file`, `check_folder`, `download_folder` and `remove`.

Two points of detail:

- The type check of `save_file` raises its `TypeError` inside `@retry()`,
  so a mismatch is attempted three times with two sleeps
  (`Storage.MismatchRetriedThenRaised`).
- `os.linesep` is fixed to `"\n"`, the POSIX value.

## Model

| member | source | states |
|---|---|---|
| Retry.Loop | src/shared/retry.py:40-58 | Entered below the limit, the attempt counter ends between its starting value and `max_attempts` and the loop ends by returning, skipping, suppressing or raising; at or above the limit nothing is called |
| Retry.LoopDescribed | src/shared/retry.py:38-60 | Every run is some counted failures followed by exactly one ending: a success before the limit, a skipped error before the limit, or a last failure at the limit that is suppressed or re-raised; calls, sleeps and debug records match that path |
| Retry.Retry | src/shared/retry.py:14-60 | The loop body never runs exactly when `max_attempts <= 0`; the counter never exceeds the limit |
| Retry.CallsBounded | src/shared/retry.py:38-51 | The wrapped function is called at most `max_attempts` times, and at least once per counted attempt |
| Retry.AttemptLog | src/shared/retry.py:44-53 | The log of any decorated call is "attempt 1 failed" to "attempt n failed", in order and once each, then the skip or suppress record if the run ended that way |
| Retry.FirstAttemptSucceeds | src/shared/retry.py:40-42 | A first call that returns is the only call, with no sleep and no record, and its value is returned unchanged |
| Retry.SucceedsAfterFailures | src/shared/retry.py:40-58 | k counted failures then a success below the limit: k + 1 calls, k sleeps, k debug records, and the success value returned |
| Retry.AllAttemptsFailRaises | src/shared/retry.py:48-56 | When every attempt fails and `suppress` declines the last error, that error is raised after `max_attempts` calls and `max_attempts - 1` sleeps |
| Retry.AllAttemptsFailSuppressed | src/shared/retry.py:51-60 | When every attempt fails and `suppress` accepts the last error, `None` is returned after `max_attempts` calls, with the suppress record last |
| Retry.SkipStops | src/shared/retry.py:44-46 | An error `skip` accepts ends the loop at once with `None`: no further call, no sleep, the counter not incremented, and the skip record last |
| Retry.RaisesIff | src/shared/retry.py:40-56 | The decorated call raises if and only if the limit is positive, every attempt is a counted failure, and `suppress` declines the last error |
| Retry.NoAttemptsWhenLimitNonPositive | src/shared/retry.py:38-60 | A non-positive limit returns `None` without calling the function |
| Retry.Turn | src/shared/retry.py:41-58 | One pass of the `while` body either finishes the decorated call's run, or hands on a counter one higher with the same overall run still ahead |
| Retry.RetryLoop | src/shared/retry.py:38-60 | The imperative `while` loop, with its early returns, computes exactly the reference run `Retry` |
| Retry.PlainScenarios | tests/shared/test_retry.py:11-43 | A succeeding function is called once; an always-failing one is called three times and its error re-raised; one failing once is called twice and returns "Success" |
| Retry.PredicateScenarios | tests/shared/test_retry.py:45-65 | A skipped error returns `None` after one call; a suppressed error returns `None` after three |
| Tracing.Invoke | src/shared/logger.py:33-46 | A decorated call hands the stack back as it found it, whether it returns or raises; its first record is "start" and its last is "finish" or "error" under the same dotted label; a returned value is the body's own |
| Tracing.InvokeAll | src/shared/logger.py:36-46 | The decorated children of a body leave the stack as they found it; with no children nothing is logged |
| Tracing.InvokeAllCompletes | src/shared/logger.py:38-42 | A body runs to its end exactly when no decorated child raises an error that the body does not catch |
| Tracing.InvokeAllFirstFault | src/shared/logger.py:38-42 | The first child error that escapes the body is the body's error, and no later child runs |
| Tracing.InvokeReturnsOwnEnding | src/shared/logger.py:38-44 | When no child error escapes its body, a decorated call ends as its own body does |
| Tracing.InvokePropagatesChildError | src/shared/logger.py:40-42 | The first child error that escapes the body leaves the parent as the same error, whatever the parent's body would have returned |
| Tracing.Enter | src/shared/logger.py:29-31 | After entering, the thread has a stack |
| Tracing.Traced | src/shared/logger.py:28-46 | After a decorated call the thread's stack exists and is what it was before; the root is set by the thread's first call only |
| Tracing.InvokeBracketed | src/shared/logger.py:33-46 | The log of any call tree is well bracketed: every "finish" or "error" closes the innermost open call under its own label, and every call is closed exactly once |
| Tracing.InvokeAllBracketed | src/shared/logger.py:36-46 | The logs of a body's children, including one cut short by an error, are well bracketed |
| Tracing.LeafTrace | src/shared/logger.py:36-44 | A call without decorated children logs exactly its "start" and then its "finish" or "error" |
| Tracing.OneChildTrace | src/shared/logger.py:36-44 | A returning call with one returning child logs "start", the child's log, and "finish" |
| Tracing.TwoChildrenTrace | src/shared/logger.py:36-44 | A returning call with two children that return or whose errors are caught logs "start", both children's logs in order, and "finish" |
| Tracing.TracedOnFreshThread | src/shared/logger.py:29-31 | On a fresh thread the call runs on a new empty stack, leaves it empty, and its name becomes the root |
| Tracing.RootKeptAcrossCalls | src/shared/logger.py:29-31 | A later call on the same thread does not reset the root |
| Tracing.Labels | src/shared/logger.py:34 | The call chain of a stack is its names joined by "." |
| Tracing.NestedCallsEvents | tests/shared/test_logger.py:42-66 | Nested calls open outermost first and close innermost first, and the innermost value is returned |
| Tracing.NestedCallsLog | tests/shared/test_logger.py:57-66 | The six records of `c()` calling `b()` calling `a()` read "c > start" through "c > finish" |
| Tracing.SiblingCallsEvents | tests/shared/test_logger.py:16-40 | Sibling calls run one after the other under the parent's label, and the parent's value is returned |
| Tracing.SiblingCallsLog | tests/shared/test_logger.py:31-40 | The six records of `parent()` calling `a()` then `b()` read "parent > start" through "parent > finish" |
| Tracing.CaughtCallsEvents | src/shared/logger.py:36-46 | A child whose error the parent catches, as `retry` does, logs "start" and "error" under its own label; the next sibling still runs, and the parent finishes with its own value |
| Tracing.RaisingCallEvents | tests/shared/test_logger.py:68-84 | A raising call logs "start" and then an error record with its arguments, and the error propagates |
| Tracing.RaisingCallLog | tests/shared/test_logger.py:77-84 | The error record's text carries the `repr` of the positional and keyword arguments |
| Traceback.Filter | src/shared/traceback.py:14-20 | No more frames are kept than the traceback has; each kept frame comes from the traceback, and none of them is a wrapper frame |
| Traceback.FilterInOrder | src/shared/traceback.py:14-20 | Two frames that are not wrappers are both kept, with the outer one still ahead of the inner one |
| Traceback.FilterAppend | src/shared/traceback.py:14-20 | Filtering a traceback in two parts gives the two parts' results concatenated |
| Traceback.FilterCount | src/shared/traceback.py:14-20 | Exactly the wrapper frames are dropped: the kept count is the total minus the wrapper count |
| Traceback.FilterKeeps | src/shared/traceback.py:17-18 | Every frame that is not a wrapper's is kept |
| Traceback.FilterIdentity | src/shared/traceback.py:14-20 | A traceback without wrapper frames is left as it is |
| Traceback.FilterIdempotent | src/shared/traceback.py:14-20 | Cleaning a cleaned traceback changes nothing |
| Traceback.CleanFrames | src/shared/traceback.py:12-20 | The `while tb is not None` walk collects exactly the filtered frames |
| Traceback.FormatException | src/shared/traceback.py:22-25 | The text always ends with the exception line; it starts with the header when a frame is kept, and is the bare exception line exactly when none is |
| Traceback.FormatExceptionFrames | src/shared/traceback.py:22-25 | When frames are kept and no line repeats back to back, the text is the header, every kept frame once in traceback order, and the exception line |
| Traceback.FormatListEmpty | src/shared/traceback.py:22-23 | Formatting frames gives the empty text exactly when there are no frames |
| Traceback.RunLengthRun | src/shared/traceback.py:23 | The run at the head of the frames is all one line (same file, line number and name), and the frame after it is a different line |
| Traceback.RunLengthIs | src/shared/traceback.py:23 | The head run is exactly `n` frames long when the first `n` are one line and the next is not |
| Traceback.RunLengthAppend | src/shared/traceback.py:23 | A run does not reach into frames that follow and start on another line |
| Traceback.FormatListDistinct | src/shared/traceback.py:23 | Without two same lines in a row, every frame is printed once, in order |
| Traceback.FormatListRepeated | src/shared/traceback.py:23 | A recursion `n` frames deep prints the frame at most three times, then "[Previous line repeated n-3 more time(s)]" when `n > 3` |
| Traceback.FormatListAppend | src/shared/traceback.py:23 | Frames that split between two different lines are printed as the two parts' texts in turn, so the cutoff applies to each run on its own |
| Traceback.DecoratorFrameInvisible | src/shared/traceback.py:14-25 | Adding a wrapper frame anywhere in a traceback leaves the formatted text unchanged |
| Traceback.FilterSkipsDecorator | src/shared/traceback.py:17-18 | A wrapper frame is dropped wherever it stands |
| Traceback.FormatSeesOnlyFilter | src/shared/traceback.py:22-25 | The formatted text depends on the traceback only through the kept frames |
| Strings.SpaceRunEnd | src/shared/args.py:14 | The leading run of whitespace ends at the first non-space character or the end |
| Strings.SpaceRunStart | src/shared/args.py:14 | The trailing run of whitespace starts after the last non-space character or at the start |
| Strings.Strip | src/shared/args.py:14-15 | A stripped segment starts and ends with a non-space character, and is empty exactly when the segment is all whitespace |
| Strings.StripInfix | src/shared/args.py:14 | The stripped segment is a contiguous part of the input with only whitespace cut off on either side |
| Strings.IndexOf | src/shared/args.py:16 | The first occurrence of the character, or none when it does not occur |
| Strings.Split | src/shared/args.py:13 | Splitting gives at least one piece, and no piece holds the separator |
| Strings.JoinSplit | src/shared/args.py:13 | Joining the pieces of a split with the separator gives back the text |
| Strings.SplitJoin | src/shared/args.py:13 | Splitting a join of separator-free pieces gives back the pieces, empty ones included |
| Strings.Lower | src/shared/file.py:13 | Lower-casing keeps the length and maps every character through ASCII lower-case |
| Repr.Quote | src/shared/args.py:33 | `repr` picks the double quote exactly when the text holds a single quote and no double quote |
| Repr.Repr | src/shared/args.py:33 | A `repr` opens and closes with the chosen quote |
| Repr.ReprList | src/shared/args.py:33 | A list's `repr` is bracketed |
| Repr.UnescapeEscape | src/shared/args.py:33 | The escaped text between the quotes reads back as the original text |
| Repr.ParseRepr | src/shared/args.py:33 | `repr` of a `str` loses nothing: it reads back as the same text |
| Repr.ReprListPlain | tests/shared/test_args.py:200 | A one-item list of plain text is shown as `['text']` |
| Args.Delimiter | src/shared/args.py:12 | The delimiter is ";" exactly when the text holds one, and the line separator otherwise |
| Args.SplitPair | src/shared/args.py:16 | A segment splits at its first "=" into a key without "=" and a value that may hold "="; without "=" the unpack fails |
| Args.ReadSegment | src/shared/args.py:14-17 | A segment is skipped exactly when it is all whitespace; otherwise a segment without "=" is an unpack error, and one that splits succeeds exactly when its pair is assignable, the illegal assignment naming that pair |
| Args.ExportSegments | src/shared/args.py:13-17 | An export that finishes without error keeps every variable that was already set |
| Args.ApplyLastWins | src/shared/args.py:17 | The last assignment to a name wins, and names no pair mentions keep their value |
| Args.ExportIsApply | src/shared/args.py:13-17 | Without errors, exporting assigns exactly the pairs the input denotes, in order; on an error, the environment holds exactly the pairs read before the failing segment, and the reported error is that segment's |
| Args.BlankSegmentSkipped | src/shared/args.py:15 | A blank segment anywhere in the input changes nothing |
| Args.StripTrimmed | src/shared/args.py:14 | Text without leading or trailing whitespace is its own strip |
| Args.RenderReadsBack | src/shared/args.py:14-17 | A well-formed pair written as `k=v` is read back as the same pair |
| Args.SplitRendered | src/shared/args.py:16 | A key without "=" is split off its rendering exactly |
| Args.PairsOfRendered | src/shared/args.py:13-17 | Well-formed pairs written as segments are read back as the same pairs, in order |
| Args.PairsCons | src/shared/args.py:13-17 | A segment holding a good pair contributes it ahead of the pairs that follow |
| Args.RenderedCons | src/shared/args.py:13-17 | A well-formed pair written ahead of other segments is read first |
| Args.RoundTrip | src/shared/args.py:12-17 | Any number of well-formed pairs joined with ";" is exported as exactly those pairs: several are split on ";", one is the whole line, none is the empty text |
| Args.ParseExportRoundTrip | src/shared/args.py:12-17 | `_parse_export_env_vars` of well-formed pairs joined with ";" raises nothing and leaves the environment with exactly those assignments made in order |
| Args.PairsOfEmptyText | src/shared/args.py:15 | The empty text denotes no pairs |
| Args.MissingArgs | src/shared/args.py:40 | A name is reported missing exactly when it is required and is absent or falsy |
| Args.MissingArgsAppend | src/shared/args.py:40 | The missing names keep the order of the required list |
| Args.Validate | src/shared/args.py:36-42 | Validation passes exactly when the action is known and every required argument is present and truthy; a missing `action` is the `KeyError` of `_parsed["action"]`, an action outside the table is the `KeyError` of `required[action]`, and otherwise `ArgumentMissingError` names all the missing arguments, in order, with the action |
| Args.GetOrderNeedsOrderId | src/args.py:10 | Under the action table, `get_order` passes exactly when `order_id` is present and truthy, and otherwise names `order_id` |
| Args.SingleMissingMessage | src/shared/args.py:31-33 | One missing plain argument gives "Parameter['name'] is required for action<action>." |
| Files.IsJson | src/shared/file.py:11-13 | A path is JSON exactly when its last four characters, lower-cased, are "json"; shorter paths never are |
| Files.LowerIdempotent | src/shared/file.py:13 | Lower-casing twice is lower-casing once |
| Files.IsJsonIgnoresCase | src/shared/file.py:13 | A path and its lower-cased form are judged alike |
| Files.IsJsonSuffix | src/shared/file.py:13 | Only the last four characters decide |
| Files.EndsInJson | src/shared/file.py:13 | Any path ending in "json" is JSON |
| Files.EndsInUpperJson | src/shared/file.py:13 | Any path ending in "JSON" is JSON |
| Files.NotJson | src/shared/file.py:13 | A path whose fourth character from the end is not a letter is not JSON |
| Files.IsJsonTestCases | tests/shared/test_file.py:12-15 | "test.json" is JSON and "test.txt" is not |
| Files.IsJsonWithoutDotOrCase | src/shared/file.py:13 | "foojson" and "DATA.JSON" are both JSON: no dot is needed and case does not matter |
| StorageClients.GetClient | src/shared/storage.py:45-57 | A caching request reuses the cached client when there is one; otherwise a new client is created and becomes the cache exactly when caching was asked for |
| StorageClients.TeardownAsWritten | src/shared/storage.py:74-80 | As written, a non-caching call closes its own client and forgets the cache; a caching call changes nothing |
| StorageClients.Teardown | src/shared/storage.py:74-80 | The corrected teardown also closes the cached client it forgets |
| StorageClients.CallAsWritten | src/shared/storage.py:60-80 | The wrapped function's result or error passes through unchanged; a non-caching call uses a new client and closes it |
| StorageClients.Call | src/shared/storage.py:60-80 | The same with the corrected teardown: the cached client is reused, or a new one is cached or closed |
| StorageClients.CallKeepsNoLeak | src/shared/storage.py:60-80 | With the corrected teardown, every client handed out is closed unless it is the cache, after any sequence of calls that are not nested in one another |
| StorageClients.NestedLeaksAsWritten | src/shared/storage.py:157-166 | As written, one `download_folder(..., cache_client=False)` leaks by itself: its inner `download_file` caches a second client, which the outer teardown forgets without closing |
| StorageClients.NestedKeepsNoLeak | src/shared/storage.py:60-80 | With the corrected teardown, a decorated call making one decorated call of its own leaves every client closed except the cache, for every choice of caching in the two calls |
| StorageClients.CachedClientReused | src/shared/storage.py:48-49 | A cached client is reused by every caching call and never closed by one |
| StorageClients.FreshClientClosed | src/shared/storage.py:74-78 | A non-caching call uses a new client and closes it, even when the body raised, and the cache is then empty |
| StorageClients.TeardownLeaksCachedClient | src/shared/storage.py:76-80 | As written, a caching call followed by a non-caching one leaves the first client open with nothing referring to it |
| Storage.SaveFile | src/shared/storage.py:90-99 | The save fails exactly when the data's kind does not match the path's, and then nothing is written; otherwise the blob is written and every other blob is left alone |
| Storage.ReadFile | src/shared/storage.py:102-106 | Reading a missing blob fails with the not-found error, and reading an existing one does not; content `save_file` did not write is returned uninterpreted |
| Storage.ReadAfterSave | src/shared/storage.py:92-106 | Reading back a saved path gives the saved dict or text |
| Storage.SaveOverwrites | src/shared/storage.py:99 | The second save to a path wins |
| Storage.MismatchRetriedThenRaised | src/shared/storage.py:90-96 | A mismatched save is attempted three times, sleeps twice, raises the `TypeError`, and writes nothing |
| Storage.PrefixKeys | src/shared/storage.py:154 | The listing holds exactly the blobs whose names start with the prefix |
| Storage.CheckFolder | src/shared/storage.py:151-154 | A folder exists exactly when some blob name starts with the path |
| Storage.Removed | src/shared/storage.py:174-185 | After removal, exactly the blobs outside the prefix remain, each with its content |
| Storage.DeleteBlob | src/shared/storage.py:183 | Deleting fails exactly when the blob is absent, and otherwise removes just that blob |
| Storage.Remove | src/shared/storage.py:174-185 | Deleting each listed blob, or the path itself when nothing is listed, with the not-found error suppressed, leaves exactly the blobs outside the prefix |
| Storage.RemoveThenCheck | src/shared/storage.py:174-185 | After a removal neither a file nor a folder of that name is found; removing what is not there changes nothing |
| Storage.FileIsFolder | src/shared/storage.py:151-154 | A file is also found as a folder of the same name |
| Storage.NothingListedNothingThere | src/shared/storage.py:181-185 | An empty listing means there is no blob of that exact name |
| Storage.UploadFile | src/shared/storage.py:115-124 | A missing local file, or the empty path, changes nothing; otherwise the blob at the storage path, or at the local path when that is empty, holds the file and nothing else changes |
| Storage.UploadThenDownload | src/shared/storage.py:115-134 | Uploading a local file and downloading its blob to a non-empty target puts the file's content at the target, with no error |
| Storage.LastSlash | src/shared/storage.py:132 | The last "/", or none when the path has no "/" |
| Storage.StripSlashes | src/shared/storage.py:132 | Only trailing slashes are removed |
| Storage.Dirname | src/shared/storage.py:132 | The directory part is empty exactly when the path has no "/" |
| Storage.DownloadFileAsWritten | src/shared/storage.py:127-134 | As written, a target without "/" fails with the `FileNotFoundError` of the empty path before anything is fetched or written |
| Storage.Fetch | src/shared/storage.py:133-134 | The target is created either way; it holds the blob's bytes, or is empty and the not-found error is raised when the blob is missing |
| Storage.DownloadFile | src/shared/storage.py:127-134 | The corrected download writes any non-empty target, and agrees with the code as written whenever the target has a "/" |
| Storage.TopLevelDownloadFails | src/shared/storage.py:131-132 | As written, downloading a top-level blob to its default target fails; corrected, the file is written |
| Storage.TopLevelDownloadRaisedAfterRetries | src/shared/storage.py:127-132 | The as-written failure is raised after the three attempts of `@retry()` |
| Storage.FolderTargetInjective | src/shared/storage.py:164-165 | Distinct blobs under the prefix land on distinct local paths |
| Storage.FolderStepAsWritten | src/shared/storage.py:164-166 | As written, one blob of a folder download fails exactly when its local target has no "/"; it then raises the `FileNotFoundError` of the empty path and writes nothing |
| Storage.DownloadAllAsWrittenFails | src/shared/storage.py:159-166 | As written, a folder download completes exactly when every blob's local target has a "/" |
| Storage.DownloadAllAsWrittenError | src/shared/storage.py:159-166 | As written, a folder download reaching a blob whose target has no "/" raises the `FileNotFoundError` of the empty path, with exactly the blobs before it downloaded |
| Storage.DownloadAllAgrees | src/shared/storage.py:159-166 | When every target has a "/", the code as written and the corrected download produce the same local files |
| Storage.FolderIntoBareRootFails | src/shared/storage.py:159-166 | As written, downloading folder `data/` into root `out` fails on `data/x.json`, whose target `outx.json` has no "/", and writes nothing |
| Storage.FolderFetchedFromDefaultContainer | src/shared/storage.py:159-166 | As written, a blob listed in the named container is fetched from the default one: if it is missing there, the not-found error is raised and an empty file is left at its target; fetched from the listed container it is written |
| Storage.DownloadFolderContents | src/shared/storage.py:157-166 | For the container's own listing, when every target has a "/", the folder download as written succeeds and puts each blob under the prefix at its target with its content |
| Storage.DownloadAllContents | src/shared/storage.py:157-166 | After a folder download every blob under the prefix is at its local target with its content, other local files are untouched, and nothing else is created |

## Left out

- The Azure SDK, the network and credentials are not modelled. This includes the connection string, `getenv` of the account and container names, and `create_container` with its suppressed `ResourceExistsError`. A container is a map from blob names to contents.
- JSON and UTF-8 are left abstract. A saved dict is `Dumped(doc)` and saved text is `Encoded(text)`; other bytes are `Raw`. Reading such content back is `Uninterpreted`.
- `sleep(delay)` is counted, not timed. `delay` has no other effect.
- Thread-local isolation is out. `Tracing` models one thread's `tracing` object as a value passed in and handed back.
- The interleaving of `with_logger` records with `retry` records in one log is left out. Each decorator's records are modelled separately.
- `logger.exception` appends a formatted traceback to the error record. The model keeps only the message text.
- `config_logger` is left out (log level, handler set-up).
- `parse_env_vars` is left out: its `argparse` front end only hands the string to `_parse_export_env_vars`, which is modelled.
- `upload_folder` is left out: it walks the local directory tree and calls `upload_file`, which is modelled.
- `save_json`, `read_json`, `check_file`, `remove_file`, `check_folder` and `remove_folder` of `src/shared/file.py` are left out: they are thin wrappers over the local file system.
- `Retry.Loop`: an error stands for an `Exception` subclass, which is what `retry` catches. A `BaseException` such as `KeyboardInterrupt` or `SystemExit` leaves after one call, with no record, no sleep, and no `skip` or `suppress` asked. That is not modelled.
- `Tracing.Invoke`: a `Fault` stands for an `Exception` subclass, which is what `with_logger` catches and logs. A `BaseException` only pops the stack and writes no "error" record. That is not modelled.
- `StorageClients.Call`: the body is a function of the client only, so it cannot make decorated calls of its own. `CallKeepsNoLeak` therefore covers calls that are not nested. `NestedAsWritten` and `Nested` model one level of nesting, as `download_folder` has it, and deeper nesting is left out.
- `StorageClients.NestedKeepsNoLeak` tracks leaks only. Under the corrected teardown, a non-caching inner call closes the cached client that a caching outer call is still using. Use after close is not modelled.
- `Traceback.ExceptionOnly` gives the one-line form `Type: message`. The `__notes__` lines and the multi-line form of a `SyntaxError` are not modelled.
- `Strings.Lower` changes only ASCII letters. Python's `str.lower` also folds other letters.
- `Repr.Repr` treats every character outside ASCII as printable. Python escapes some of them.
- `Traceback.FormatFrame` omits the column carets that newer Python versions add under a source line.
- `Strings.StripStart`: its contract gives only the removed prefix and the first kept character. `Strings.StripInfix` and `Strings.Strip` give the full characterisation.
- `Strings.StripEnd`: its contract gives only the removed suffix and the last kept character, for the same reason.
- `Storage.DownloadAllContents`: requires every local target to be non-empty. With an empty root and a blob named exactly the prefix the target is empty, and `download_file` then falls back to the blob's own name.
- `Storage.ReadFile`: content that `save_file` did not write, such as uploaded raw bytes, is returned as `Uninterpreted`. The `UnicodeDecodeError` or `JSONDecodeError` that such content can raise is not modelled, because JSON parsing and UTF-8 decoding are not.
- The local file system is a flat map from paths to contents, with no directories. A path that is a directory, or that needs a directory where a file stands, is not modelled: `open` raising `IsADirectoryError` or `NotADirectoryError`, and `os.makedirs` raising `FileExistsError`. The lines below name the contracts this affects.
- `Storage.UploadFile`: a `file_path` naming a local directory raises `IsADirectoryError` in the program. The model treats it as absent and changes nothing.
- `Storage.Fetch`: a target naming a local directory, such as the `out/` of a folder-marker blob, makes `open` raise. The model writes a file under that name.
- `Storage.DownloadFile`: "writes any non-empty target" holds only for targets that are not directories and whose parents are not files.
- `Storage.FolderStepAsWritten`: success when the target has a "/" assumes no directory clash. A target that is a directory, or whose directory part is an existing file, raises in the program.
- `Storage.DownloadAllAsWrittenFails`: the completion direction assumes no directory clash. For blobs `data/a` and `data/a/b` downloaded into `out/`, the program writes the file `out/a` and then fails in `os.makedirs("out/a")`.
- `Storage.DownloadAllAsWrittenError`: an earlier blob with a directory clash can raise first in the program.
- `Storage.DownloadFolderContents`: success is promised also for listings whose targets clash as files and directories, where the program raises.
- `Storage.DownloadAllContents`: the same; a target that is also the directory of another target is not modelled.
- `Storage.DownloadAllAsWritten`: the whole loop runs once. `download_folder` is itself under `@retry()`, so a failing blob is tried three times per outer attempt, nine in all; the outcome is the same error. `create_container` and `cache_client` are not forwarded to the inner calls either, which matters only for the client cache; the unforwarded `container_name` is listed under Findings.
- `Storage.CheckFile` has no contract of its own. `Storage.RemoveThenCheck` and `Storage.FileIsFolder` state its properties.

## Findings

| source | as written | input that shows it | evidently intended | confidence | as-written member | corrected member |
|---|---|---|---|---|---|---|
| src/shared/storage.py:131-132 | `makedirs(path.dirname(_file_path), exist_ok=True)` runs even when the target has no directory part, and `os.makedirs("")` raises `FileNotFoundError` | `download_file("report.txt")`: the default target is `report.txt`, its dirname is empty, and the call fails on every attempt; `download_folder("data/", "out")` fails the same way on `data/x.json` | skip the directory step when the target has no directory part, so a top-level blob downloads to its own name | medium, not executed | Storage.TopLevelDownloadFails | Storage.DownloadFile |
| src/shared/storage.py:166 | `download_file(blob.name, file_path)` is called without the `container_name` that `download_folder` received, so each listed blob is fetched from the default container | `download_folder("data/", "out/", container_name="other")` where `other` holds `data/x.json` and the default container does not: the listing finds the blob, the fetch raises `ResourceNotFoundError`, and an empty `out/x.json` is left | forward `container_name` to the inner calls, so the blobs are fetched from the container that was listed | high, not executed | Storage.FolderFetchedFromDefaultContainer | Storage.DownloadFolderContents |
| src/shared/storage.py:76-80 | a non-caching call closes its own client and sets the cached client to `None` without closing it | a call with `cache_client=True`, then one with `cache_client=False`: the first client is forgotten but never closed; a single `download_folder(..., cache_client=False)` does the same through its inner `download_file` (`StorageClients.NestedLeaksAsWritten`) | close the cached client before forgetting it, so no client is left open and unreferenced | medium, not executed | StorageClients.TeardownLeaksCachedClient | StorageClients.CallKeepsNoLeak |

=== FILE: Args.dfy ===
/** src/shared/args.py: exporting `KEY=value` pairs passed as one string,
    and checking that an action's required arguments are present. */
module Args {
  import opened Wrappers
  import Strings
  import Repr

  /** `os.linesep` on a POSIX host. */
  const LineSep: char := '\n'

  /** `";"` when the text holds one, the line separator otherwise. */
  function Delimiter(s: string): (d: char)
    ensures d == ';' || d == LineSep
    ensures d == ';' <==> ';' in s
  {
    if ';' in s then ';' else LineSep
  }

  /** `pair.split("=", 1)` unpacked into `k, v`: `None` when the segment has
      no `=` and the unpack fails. The key never holds `=`; the value may. */
  function SplitPair(seg: string): (r: Option<(string, string)>)
    ensures r.None? <==> '=' !in seg
    ensures r.Some? ==> r.value.0 + "=" + r.value.1 == seg && '=' !in r.value.0
  {
    match Strings.IndexOf(seg, '=')
    case None => None
    case Some(i) =>
      assert seg == seg[..i] + "=" + seg[i + 1..];
      Some((seg[..i], seg[i + 1..]))
  }

  /** Why an export stops: a segment with no `=`, or a name that `os.putenv`
      rejects (empty, or holding a NUL) or a value holding a NUL. */
  datatype ExportError = NoEquals(segment: string) | IllegalAssignment(key: string, value: string)

  /** `os.environ[k] = v` succeeds unless `os.putenv` rejects the pair. */
  predicate Assignable(k: string, v: string) {
    k != "" && '\0' !in k && '\0' !in v
  }

  /** The environment after the loop, and the error that ended it early, if any. */
  datatype Export = Export(env: map<string, string>, error: Option<ExportError>)

  /** One segment of the loop body: `None` for a blank segment, which is
      skipped; otherwise the stripped segment split into an assignable pair,
      or the error that ends the loop. */
  function ReadSegment(seg: string): (r: Result<Option<(string, string)>, ExportError>)
    ensures r == Success(None) <==> Strings.AllSpace(seg)
    ensures r.Success? && r.value.Some? ==>
              r.value.value.0 + "=" + r.value.value.1 == Strings.Strip(seg)
              && '=' !in r.value.value.0 && Assignable(r.value.value.0, r.value.value.1)
    ensures r.Failure? && r.error.NoEquals? ==> r.error.segment == Strings.Strip(seg) && '=' !in Strings.Strip(seg)
    ensures !Strings.AllSpace(seg) && SplitPair(Strings.Strip(seg)).Some? ==>
              (r.Success? <==> Assignable(SplitPair(Strings.Strip(seg)).value.0, SplitPair(Strings.Strip(seg)).value.1))
    ensures r.Failure? && r.error.IllegalAssignment? ==>
              SplitPair(Strings.Strip(seg)) == Some((r.error.key, r.error.value)) && !Assignable(r.error.key, r.error.value)
  {
    var pair := Strings.Strip(seg);
    if pair == "" then Success(None)
    else match SplitPair(pair)
      case None => Failure(NoEquals(pair))
      case Some((k, v)) => if Assignable(k, v) then Success(Some((k, v))) else Failure(IllegalAssignment(k, v))
  }

  /** The `for` loop over segments: blank segments are skipped, every other
      one is split and assigned in order; the first failure stops the loop
      with the earlier assignments already made. */
  function ExportSegments(env: map<string, string>, segs: seq<string>): (r: Export)
    ensures r.error.None? ==> env.Keys <= r.env.Keys
    decreases |segs|
  {
    if segs == [] then Export(env, None)
    else match ReadSegment(segs[0])
      case Failure(e) => Export(env, Some(e))
      case Success(None) => ExportSegments(env, segs[1..])
      case Success(Some((k, v))) => ExportSegments(env[k := v], segs[1..])
  }

  /** `_parse_export_env_vars(env_vars)` run against environment `env`. */
  function ParseExportEnvVars(env: map<string, string>, envVars: string): Export {
    ExportSegments(env, Strings.Split(envVars, Delimiter(envVars)))
  }

  /** The pairs a list of segments denotes, or the first error: the
      reference reading of the input, independent of the environment. */
  function Pairs(segs: seq<string>): Result<seq<(string, string)>, ExportError>
    decreases |segs|
  {
    if segs == [] then Success([])
    else match ReadSegment(segs[0])
      case Failure(e) => Failure(e)
      case Success(None) => Pairs(segs[1..])
      case Success(Some(p)) =>
        match Pairs(segs[1..])
        case Failure(e) => Failure(e)
        case Success(rest) => Success([p] + rest)
  }

  /** The pairs read before the first failing segment, or all of them when
      no segment fails. */
  function PairsBefore(segs: seq<string>): seq<(string, string)>
    decreases |segs|
  {
    if segs == [] then []
    else match ReadSegment(segs[0])
      case Failure(_) => []
      case Success(None) => PairsBefore(segs[1..])
      case Success(Some(p)) => [p] + PairsBefore(segs[1..])
  }

  /** Assigning pairs left to right. */
  function Apply(env: map<string, string>, pairs: seq<(string, string)>): map<string, string>
    decreases |pairs|
  {
    if pairs == [] then env else Apply(env[pairs[0].0 := pairs[0].1], pairs[1..])
  }

  /** The value the last pair for `k` carries, if any pair names `k`. */
  function LastValue(pairs: seq<(string, string)>, k: string): Option<string>
    decreases |pairs|
  {
    if pairs == [] then None
    else if pairs[|pairs| - 1].0 == k then Some(pairs[|pairs| - 1].1)
    else LastValue(pairs[..|pairs| - 1], k)
  }

  lemma {:induction false} ApplySnoc(env: map<string, string>, pairs: seq<(string, string)>, p: (string, string))
    ensures Apply(env, pairs + [p]) == Apply(env, pairs)[p.0 := p.1]
    decreases |pairs|
  {
    if pairs == [] {
      assert pairs + [p] == [p];
    } else {
      assert (pairs + [p])[1..] == pairs[1..] + [p];
      ApplySnoc(env[pairs[0].0 := pairs[0].1], pairs[1..], p);
    }
  }

  /** The last assignment to a key wins; keys no pair names keep their value. */
  lemma {:induction false} ApplyLastWins(env: map<string, string>, pairs: seq<(string, string)>, k: string)
    ensures LastValue(pairs, k).Some? ==> k in Apply(env, pairs) && Apply(env, pairs)[k] == LastValue(pairs, k).value
    ensures LastValue(pairs, k).None? ==> (k in Apply(env, pairs) <==> k in env)
    ensures LastValue(pairs, k).None? && k in env ==> Apply(env, pairs)[k] == env[k]
    decreases |pairs|
  {
    if pairs != [] {
      var init := pairs[..|pairs| - 1];
      var p := pairs[|pairs| - 1];
      assert pairs == init + [p];
      ApplySnoc(env, init, p);
      ApplyLastWins(env, init, k);
    }
  }

  /** Without errors, exporting is assigning the pairs the input denotes;
      on an error, exactly the pairs before the offending segment have been
      assigned, and the error is the one the reference reading reports. */
  lemma {:induction false} ExportIsApply(env: map<string, string>, segs: seq<string>)
    ensures Pairs(segs).Success? ==> ExportSegments(env, segs) == Export(Apply(env, Pairs(segs).value), None)
    ensures Pairs(segs).Failure? ==> ExportSegments(env, segs).error == Some(Pairs(segs).error)
    ensures Pairs(segs).Failure? ==> ExportSegments(env, segs).env == Apply(env, PairsBefore(segs))
    ensures Pairs(segs).Success? ==> PairsBefore(segs) == Pairs(segs).value
    decreases |segs|
  {
    if segs != [] {
      match ReadSegment(segs[0])
      case Failure(_) =>
      case Success(None) => ExportIsApply(env, segs[1..]);
      case Success(Some((k, v))) =>
        ExportIsApply(env[k := v], segs[1..]);
        ApplyCons(env, (k, v), PairsBefore(segs[1..]));
    }
  }

  /** Assigning one more pair in front is assigning it first. */
  lemma ApplyCons(env: map<string, string>, p: (string, string), pairs: seq<(string, string)>)
    ensures Apply(env, [p] + pairs) == Apply(env[p.0 := p.1], pairs)
  {
    assert ([p] + pairs)[1..] == pairs;
  }

  /** Every blank segment, whatever its position, is skipped. */
  lemma {:induction false} BlankSegmentSkipped(env: map<string, string>, before: seq<string>, blank: string, after: seq<string>)
    requires Strings.AllSpace(blank)
    ensures ExportSegments(env, before + [blank] + after) == ExportSegments(env, before + after)
    decreases |before|
  {
    if before == [] {
      assert before + [blank] + after == [blank] + after;
      assert ([blank] + after)[1..] == after;
      assert before + after == after;
    } else {
      assert (before + [blank] + after)[1..] == before[1..] + [blank] + after;
      assert (before + after)[1..] == before[1..] + after;
      match ReadSegment(before[0])
      case Failure(_) =>
      case Success(None) => BlankSegmentSkipped(env, before[1..], blank, after);
      case Success(Some((k, v))) => BlankSegmentSkipped(env[k := v], before[1..], blank, after);
    }
  }

  /** Text without leading or trailing whitespace is its own strip. */
  lemma StripTrimmed(s: string)
    requires s != [] && !Strings.IsSpace(s[0]) && !Strings.IsSpace(s[|s| - 1])
    ensures Strings.Strip(s) == s
  {
    assert Strings.SpaceRunEnd(s, 0) == 0;
    assert Strings.StripStart(s) == s;
    assert Strings.SpaceRunStart(s, |s|) == |s|;
  }

  /** A pair as written on the command line. */
  function Render(p: (string, string)): string {
    p.0 + "=" + p.1
  }

  function RenderAll(pairs: seq<(string, string)>): (r: seq<string>)
    ensures |r| == |pairs|
    ensures forall i :: 0 <= i < |pairs| ==> r[i] == Render(pairs[i])
  {
    seq(|pairs|, i requires 0 <= i < |pairs| => Render(pairs[i]))
  }

  /** A pair that survives being written as `k=v` and read back: an
      assignable name without `=`, no delimiter in either part, and no
      whitespace that the strip would remove. */
  predicate WellFormed(p: (string, string)) {
    && Assignable(p.0, p.1)
    && '=' !in p.0
    && ';' !in p.0 && ';' !in p.1 && LineSep !in p.0 && LineSep !in p.1
    && !Strings.IsSpace(p.0[0])
    && (p.1 == [] || !Strings.IsSpace(p.1[|p.1| - 1]))
  }

  lemma RenderReadsBack(p: (string, string))
    requires WellFormed(p)
    ensures ReadSegment(Render(p)) == Success(Some(p))
    ensures ';' !in Render(p) && LineSep !in Render(p)
  {
    var s := Render(p);
    assert s[0] == p.0[0];
    assert s[|s| - 1] == if p.1 == [] then '=' else p.1[|p.1| - 1];
    StripTrimmed(s);
    SplitRendered(p);
  }

  /** A key without `=` is split off its rendering at the first `=`. */
  lemma SplitRendered(p: (string, string))
    requires '=' !in p.0
    ensures SplitPair(Render(p)) == Some(p)
  {
    var s := Render(p);
    var i := |p.0|;
    assert s[..i] == p.0;
    assert s[i] == '=';
    assert s[i + 1..] == p.1;
    var j := Strings.IndexOf(s, '=');
    assert j == Some(i) by {
      assert '=' in s;
    }
  }

  lemma {:induction false} PairsOfRendered(pairs: seq<(string, string)>)
    requires forall i :: 0 <= i < |pairs| ==> WellFormed(pairs[i])
    ensures Pairs(RenderAll(pairs)) == Success(pairs)
    decreases |pairs|
  {
    if pairs != [] {
      WellFormedTail(pairs);
      PairsOfRendered(pairs[1..]);
      PairsOfRenderedStep(pairs);
    }
  }

  lemma WellFormedTail(pairs: seq<(string, string)>)
    requires pairs != []
    requires forall i :: 0 <= i < |pairs| ==> WellFormed(pairs[i])
    ensures forall i :: 0 <= i < |pairs[1..]| ==> WellFormed(pairs[1..][i])
  {
  }

  /** One more well-formed pair in front is read back in front. */
  lemma PairsOfRenderedStep(pairs: seq<(string, string)>)
    requires pairs != [] && WellFormed(pairs[0])
    requires Pairs(RenderAll(pairs[1..])) == Success(pairs[1..])
    ensures Pairs(RenderAll(pairs)) == Success(pairs)
  {
    RenderAllCons(pairs);
    RenderedCons(pairs[0], RenderAll(pairs[1..]));
    assert [pairs[0]] + pairs[1..] == pairs;
  }

  /** A well-formed pair rendered in front of other segments is read first. */
  lemma RenderedCons(p: (string, string), rest: seq<string>)
    requires WellFormed(p)
    ensures Pairs([Render(p)] + rest) ==
      match Pairs(rest)
      case Failure(e) => Failure(e)
      case Success(ps) => Success([p] + ps)
  {
    RenderReadsBack(p);
    PairsCons(Render(p), p, rest);
  }

  lemma RenderAllCons(pairs: seq<(string, string)>)
    requires pairs != []
    ensures RenderAll(pairs) == [Render(pairs[0])] + RenderAll(pairs[1..])
  {
  }

  /** A segment holding a good pair contributes it ahead of the rest. */
  lemma PairsCons(seg: string, p: (string, string), rest: seq<string>)
    requires ReadSegment(seg) == Success(Some(p))
    ensures Pairs([seg] + rest) ==
      match Pairs(rest)
      case Failure(e) => Failure(e)
      case Success(ps) => Success([p] + ps)
  {
    assert ([seg] + rest)[0] == seg;
    assert ([seg] + rest)[1..] == rest;
  }

  /** Pairs joined with `;` are read back as the same pairs, whatever their
      number: several pairs are split on `;`, a single one is the whole
      line, and the empty text denotes no pairs. */
  lemma RoundTrip(pairs: seq<(string, string)>)
    requires forall i :: 0 <= i < |pairs| ==> WellFormed(pairs[i])
    ensures Pairs(Strings.Split(Strings.Join(RenderAll(pairs), ";"), Delimiter(Strings.Join(RenderAll(pairs), ";")))) == Success(pairs)
  {
    var segs := RenderAll(pairs);
    var text := Strings.Join(segs, ";");
    PairsOfRendered(pairs);
    forall i | 0 <= i < |pairs|
      ensures ';' !in segs[i] && LineSep !in segs[i]
    {
      RenderReadsBack(pairs[i]);
    }
    if |pairs| == 0 {
      assert text == "";
      assert Strings.Split(text, LineSep) == [""];
      PairsOfEmptyText();
    } else if |pairs| == 1 {
      assert text == segs[0];
      assert Delimiter(text) == LineSep;
      assert Strings.IndexOf(text, LineSep).None?;
      assert Strings.Split(text, LineSep) == segs;
    } else {
      assert text == segs[0] + ";" + Strings.Join(segs[1..], ";");
      assert ';' in text;
      Strings.SplitJoin(segs, ';');
    }
  }

  /** `_parse_export_env_vars` of well-formed pairs joined with ";" sets
      exactly those variables, the last assignment to a name winning, and
      raises nothing. */
  lemma ParseExportRoundTrip(env: map<string, string>, pairs: seq<(string, string)>)
    requires forall i :: 0 <= i < |pairs| ==> WellFormed(pairs[i])
    ensures ParseExportEnvVars(env, Strings.Join(RenderAll(pairs), ";")) == Export(Apply(env, pairs), None)
  {
    var text := Strings.Join(RenderAll(pairs), ";");
    RoundTrip(pairs);
    ExportIsApply(env, Strings.Split(text, Delimiter(text)));
  }

  lemma PairsOfEmptyText()
    ensures Pairs([""]) == Success([])
  {
    assert Strings.AllSpace("");
  }

  // ---------------------------------------------------------------------
  // validate_args_for_action

  /** The values `argparse` leaves in a namespace: `None`, a string, or a flag. */
  datatype ArgValue = NoneValue | Text(text: string) | Flag(flag: bool)

  /** Python truthiness of an argument value. */
  predicate Truthy(v: ArgValue) {
    match v
    case NoneValue => false
    case Text(s) => s != ""
    case Flag(b) => b
  }

  /** An argument the action requires but did not get. */
  predicate Lacks(parsed: map<string, ArgValue>, arg: string) {
    arg !in parsed || !Truthy(parsed[arg])
  }

  /** The list comprehension: the required names, in order, that are absent or falsy. */
  function MissingArgs(parsed: map<string, ArgValue>, required: seq<string>): (missing: seq<string>)
    ensures |missing| <= |required|
    ensures forall a :: a in missing <==> a in required && Lacks(parsed, a)
    decreases |required|
  {
    if required == [] then []
    else
      var rest := MissingArgs(parsed, required[1..]);
      assert required == [required[0]] + required[1..];
      if Lacks(parsed, required[0]) then [required[0]] + rest else rest
  }

  /** The comprehension keeps the order of the required list. */
  lemma {:induction false} MissingArgsAppend(parsed: map<string, ArgValue>, a: seq<string>, b: seq<string>)
    ensures MissingArgs(parsed, a + b) == MissingArgs(parsed, a) + MissingArgs(parsed, b)
    decreases |a|
  {
    if a == [] {
      assert a + b == b;
    } else {
      assert (a + b)[1..] == a[1..] + b;
      MissingArgsAppend(parsed, a[1..], b);
    }
  }

  /** Why validation fails: `_parsed["action"]` or `required[action]` is a
      `KeyError`, or `ArgumentMissingError`. */
  datatype ValidationError =
    | NoAction
    | UnknownAction(value: ArgValue)
    | ArgumentMissing(missing: seq<string>, action: string)

  /** The text of `ArgumentMissingError`. */
  function ArgumentMissingMessage(missing: seq<string>, action: string): string {
    "Parameter" + Repr.ReprList(missing) + " is required for action<" + action + ">."
  }

  /** `validate_args_for_action(parsed, required)`: `None` when it returns.
      It raises `ArgumentMissingError` exactly when the known action has a
      required argument that is absent or falsy, naming all of them. */
  function Validate(parsed: map<string, ArgValue>, required: map<string, seq<string>>): (r: Option<ValidationError>)
    ensures "action" !in parsed <==> r == Some(NoAction)
    ensures "action" in parsed && !(parsed["action"].Text? && parsed["action"].text in required) ==>
              r == Some(UnknownAction(parsed["action"]))
    ensures "action" in parsed && parsed["action"].Text? && parsed["action"].text in required
            && MissingArgs(parsed, required[parsed["action"].text]) != [] ==>
              r == Some(ArgumentMissing(MissingArgs(parsed, required[parsed["action"].text]), parsed["action"].text))
    ensures r.Some? && r.value.ArgumentMissing? ==>
              parsed["action"] == Text(r.value.action) && r.value.action in required
              && r.value.missing == MissingArgs(parsed, required[r.value.action]) && r.value.missing != []
    ensures r.None? <==>
              "action" in parsed && parsed["action"].Text? && parsed["action"].text in required
              && forall a :: a in required[parsed["action"].text] ==> !Lacks(parsed, a)
  {
    if "action" !in parsed then Some(NoAction)
    else
      var action := parsed["action"];
      if !(action.Text? && action.text in required) then Some(UnknownAction(action))
      else
        var missing := MissingArgs(parsed, required[action.text]);
        if missing != [] then
          assert missing[0] in missing;
          Some(ArgumentMissing(missing, action.text))
        else None
  }

  /** The action table of src/args.py. */
  const ActionArgs: map<string, seq<string>> := map["get_order" := ["order_id"], "get_bill" := ["order_data"]]

  /** `get_order` with an `order_id` that is `None` or empty is rejected with
      the message naming `order_id`; with a non-empty one it passes. */
  lemma GetOrderNeedsOrderId(parsed: map<string, ArgValue>)
    requires "action" in parsed && parsed["action"] == Text("get_order")
    ensures "order_id" in parsed && Truthy(parsed["order_id"]) <==> Validate(parsed, ActionArgs).None?
    ensures Lacks(parsed, "order_id") ==>
              Validate(parsed, ActionArgs) == Some(ArgumentMissing(["order_id"], "get_order"))
  {
    assert ActionArgs["get_order"] == ["order_id"];
    assert ["order_id"][1..] == [];
    assert MissingArgs(parsed, ["order_id"]) == if Lacks(parsed, "order_id") then ["order_id"] else [];
  }

  /** The message for one missing argument whose name needs no escaping,
      such as `Parameter['order_id'] is required for action<get_order>.` */
  lemma SingleMissingMessage(arg: string, action: string)
    requires forall i :: 0 <= i < |arg| ==> ' ' <= arg[i] <= '~' && arg[i] != '\\' && arg[i] != '\''
    ensures ArgumentMissingMessage([arg], action) == "Parameter" + "['" + arg + "']" + " is required for action<" + action + ">."
  {
    Repr.ReprListPlain(arg);
  }
}

=== FILE: Files.dfy ===
/** `is_json` of src/shared/file.py: whether a path names a JSON file, judged
    by the lower-cased path ending in "json". */
module Files {
  import Strings

  /** `path.lower().endswith("json")`. Only the last four characters count,
      compared without regard to ASCII case; no dot is needed. */
  function IsJson(path: string): (b: bool)
    ensures b <==> |path| >= 4 && Strings.Lower(path[|path| - 4..]) == "json"
    ensures |path| < 4 ==> !b
  {
    var low := Strings.Lower(path);
    assert |path| >= 4 ==> low[|low| - 4..] == Strings.Lower(path[|path| - 4..]);
    Strings.EndsWith(low, "json")
  }

  /** Lower-casing twice is lower-casing once. */
  lemma LowerIdempotent(s: string)
    ensures Strings.Lower(Strings.Lower(s)) == Strings.Lower(s)
  {
    forall i | 0 <= i < |s|
      ensures Strings.LowerChar(Strings.LowerChar(s[i])) == Strings.LowerChar(s[i])
    {
    }
  }

  /** The test ignores case: a path and its lower-cased form agree. */
  lemma IsJsonIgnoresCase(path: string)
    ensures IsJson(path) == IsJson(Strings.Lower(path))
  {
    if |path| >= 4 {
      var tail := path[|path| - 4..];
      var low := Strings.Lower(path);
      assert low[|low| - 4..] == Strings.Lower(tail);
      LowerIdempotent(tail);
    }
  }

  /** Whatever comes before the last four characters does not matter. */
  lemma IsJsonSuffix(prefix: string, tail: string)
    requires |tail| == 4
    ensures IsJson(prefix + tail) == IsJson(tail)
  {
    assert (prefix + tail)[|prefix + tail| - 4..] == tail;
  }

  /** Text without upper-case ASCII letters is its own lower-case form. */
  lemma LowerNoUpper(s: string)
    requires forall i :: 0 <= i < |s| ==> !('A' <= s[i] <= 'Z')
    ensures Strings.Lower(s) == s
  {
  }

  /** Any path ending in "json" is JSON. */
  lemma EndsInJson(prefix: string, tail: string)
    requires tail == "json"
    ensures IsJson(prefix + tail)
  {
    LowerNoUpper(tail);
    IsJsonSuffix(prefix, tail);
  }

  /** Any path ending in "JSON" is JSON too. */
  lemma EndsInUpperJson(prefix: string, tail: string)
    requires tail == "JSON"
    ensures IsJson(prefix + tail)
  {
    IsJsonSuffix(prefix, tail);
    assert Strings.Lower(tail)[0] == 'j' && Strings.Lower(tail)[1] == 's';
    assert Strings.Lower(tail)[2] == 'o' && Strings.Lower(tail)[3] == 'n';
  }

  /** A path whose fourth character from the end is not a letter is not JSON. */
  lemma NotJson(prefix: string, tail: string)
    requires |tail| == 4 && !('A' <= tail[0] <= 'Z') && !('a' <= tail[0] <= 'z')
    ensures !IsJson(prefix + tail)
  {
    IsJsonSuffix(prefix, tail);
    assert Strings.Lower(tail)[0] == tail[0];
  }

  /** The cases of the unit tests: "test.json" is JSON, "test.txt" is not. */
  lemma IsJsonTestCases(json: string, text: string)
    requires json == "test.json" && text == "test.txt"
    ensures IsJson(json) && !IsJson(text)
  {
    assert json == json[..5] + json[5..];
    EndsInJson(json[..5], json[5..]);
    assert text == text[..4] + text[4..];
    NotJson(text[..4], text[4..]);
  }

  /** A name with no dot before "json", and an upper-case extension. */
  lemma IsJsonWithoutDotOrCase(bare: string, upper: string)
    requires bare == "foojson" && upper == "DATA.JSON"
    ensures IsJson(bare) && IsJson(upper)
  {
    assert bare == bare[..3] + bare[3..];
    EndsInJson(bare[..3], bare[3..]);
    assert upper == upper[..5] + upper[5..];
    EndsInUpperJson(upper[..5], upper[5..]);
  }
}

=== FILE: Repr.dfy ===
/** Python's `repr` of a `str` and of a `list[str]`, as it appears in the
    argument-validation error message. Characters outside ASCII are taken to
    be printable and are kept as they are. */
module Repr {
  import opened Wrappers
  import Strings

  const HexDigits: string := "0123456789abcdef"

  /** A control character that `repr` writes as `\xhh`. */
  predicate IsHexEscaped(c: char) {
    (c < ' ' && c != '\n' && c != '\r' && c != '\t') || c == '\U{007F}'
  }

  /** The quote `repr` picks: a double quote only when the text holds a
      single quote and no double quote. */
  function Quote(s: string): (q: char)
    ensures q == '\'' || q == '"'
    ensures q == '"' <==> '\'' in s && '"' !in s
  {
    if '\'' in s && '"' !in s then '"' else '\''
  }

  /** One character inside quotes `q`. */
  function EscapeChar(c: char, q: char): (r: string)
    ensures |r| >= 1
  {
    if c == '\\' then "\\\\"
    else if c == q then ['\\', q]
    else if c == '\n' then "\\n"
    else if c == '\r' then "\\r"
    else if c == '\t' then "\\t"
    else if IsHexEscaped(c) then ['\\', 'x', HexDigits[c as int / 16], HexDigits[c as int % 16]]
    else [c]
  }

  function Escape(s: string, q: char): string
    decreases |s|
  {
    if s == [] then "" else EscapeChar(s[0], q) + Escape(s[1..], q)
  }

  /** `repr(s)` for a `str`. */
  function Repr(s: string): (r: string)
    ensures |r| >= 2 && r[0] == r[|r| - 1] == Quote(s)
  {
    [Quote(s)] + Escape(s, Quote(s)) + [Quote(s)]
  }

  /** `repr(xs)` for a `list[str]`: the items' reprs, comma separated, in brackets. */
  function ReprList(xs: seq<string>): (r: string)
    ensures |r| >= 2 && r[0] == '[' && r[|r| - 1] == ']'
  {
    "[" + Strings.Join(ReprItems(xs), ", ") + "]"
  }

  function ReprItems(xs: seq<string>): (r: seq<string>)
    ensures |r| == |xs|
    ensures forall i :: 0 <= i < |xs| ==> r[i] == Repr(xs[i])
  {
    seq(|xs|, i requires 0 <= i < |xs| => Repr(xs[i]))
  }

  function HexValue(c: char): Option<nat> {
    if '0' <= c <= '9' then Some(c as int - '0' as int)
    else if 'a' <= c <= 'f' then Some(c as int - 'a' as int + 10)
    else None
  }

  /** Reads back the text between the quotes of a `repr`; the reference
      against which the escaping is checked. */
  function Unescape(t: string, q: char): Option<string>
    decreases |t|
  {
    if t == [] then Some("")
    else if t[0] != '\\' then
      if t[0] == q then None
      else match Unescape(t[1..], q)
        case None => None
        case Some(rest) => Some([t[0]] + rest)
    else if |t| < 2 then None
    else
      var c := t[1];
      var simple :=
        if c == '\\' then Some('\\')
        else if c == q then Some(q)
        else if c == 'n' then Some('\n')
        else if c == 'r' then Some('\r')
        else if c == 't' then Some('\t')
        else None;
      if simple.Some? then
        match Unescape(t[2..], q)
        case None => None
        case Some(rest) => Some([simple.value] + rest)
      else if c == 'x' && |t| >= 4 && HexValue(t[2]).Some? && HexValue(t[3]).Some? then
        match Unescape(t[4..], q)
        case None => None
        case Some(rest) => Some([(HexValue(t[2]).value * 16 + HexValue(t[3]).value) as char] + rest)
      else None
  }

  /** Reads back a whole `repr`: the opening and closing quote must agree. */
  function Parse(t: string): Option<string> {
    if |t| >= 2 && (t[0] == '\'' || t[0] == '"') && t[|t| - 1] == t[0]
    then Unescape(t[1..|t| - 1], t[0])
    else None
  }

  lemma HexDigitsValue(n: nat)
    requires n < 16
    ensures HexValue(HexDigits[n]) == Some(n)
  {
  }

  /** Reading back one escaped character, followed by anything, gives the
      character followed by whatever the rest reads back as. */
  lemma UnescapeChar(c: char, q: char, rest: string)
    requires q == '\'' || q == '"'
    ensures Unescape(EscapeChar(c, q) + rest, q) ==
      match Unescape(rest, q)
      case None => None
      case Some(r) => Some([c] + r)
  {
    if c == '\\' || c == q || c == '\n' || c == '\r' || c == '\t' {
      UnescapeTwoChar(c, q, rest);
    } else if IsHexEscaped(c) {
      UnescapeHex(c, q, rest);
    } else {
      assert (EscapeChar(c, q) + rest)[1..] == rest;
    }
  }

  lemma UnescapeTwoChar(c: char, q: char, rest: string)
    requires q == '\'' || q == '"'
    requires c == '\\' || c == q || c == '\n' || c == '\r' || c == '\t'
    ensures Unescape(EscapeChar(c, q) + rest, q) ==
      match Unescape(rest, q)
      case None => None
      case Some(r) => Some([c] + r)
  {
    assert (EscapeChar(c, q) + rest)[2..] == rest;
  }

  lemma UnescapeHex(c: char, q: char, rest: string)
    requires q == '\'' || q == '"'
    requires IsHexEscaped(c) && c != '\n' && c != '\r' && c != '\t'
    ensures Unescape(EscapeChar(c, q) + rest, q) ==
      match Unescape(rest, q)
      case None => None
      case Some(r) => Some([c] + r)
  {
    HexDigitsValue(c as int / 16);
    HexDigitsValue(c as int % 16);
    assert (EscapeChar(c, q) + rest)[4..] == rest;
  }

  lemma {:induction false} UnescapeEscape(s: string, q: char)
    requires q == '\'' || q == '"'
    ensures Unescape(Escape(s, q), q) == Some(s)
    decreases |s|
  {
    if s != [] {
      UnescapeEscape(s[1..], q);
      UnescapeCons(s, q);
      assert [s[0]] + s[1..] == s;
    }
  }

  /** The escaped first character reads back ahead of the escaped rest. */
  lemma UnescapeCons(s: string, q: char)
    requires q == '\'' || q == '"'
    requires s != []
    ensures Unescape(Escape(s, q), q) ==
      match Unescape(Escape(s[1..], q), q)
      case None => None
      case Some(r) => Some([s[0]] + r)
  {
    UnescapeChar(s[0], q, Escape(s[1..], q));
  }

  /** `repr` loses nothing: the text reads back from its representation. */
  lemma ParseRepr(s: string)
    ensures Parse(Repr(s)) == Some(s)
  {
    var r := Repr(s);
    assert r[1..|r| - 1] == Escape(s, Quote(s));
    UnescapeEscape(s, Quote(s));
  }

  /** Text with nothing to escape is shown between single quotes as it is. */
  lemma {:induction false} EscapePlain(s: string)
    requires forall i :: 0 <= i < |s| ==> ' ' <= s[i] <= '~' && s[i] != '\\' && s[i] != '\''
    ensures Escape(s, '\'') == s
    decreases |s|
  {
    if s != [] {
      EscapePlain(s[1..]);
      assert [s[0]] + s[1..] == s;
    }
  }

  lemma ReprPlain(s: string)
    requires forall i :: 0 <= i < |s| ==> ' ' <= s[i] <= '~' && s[i] != '\\' && s[i] != '\''
    ensures Repr(s) == "'" + s + "'"
  {
    EscapePlain(s);
  }

  /** A one-element list of such text is shown as `['text']`. */
  lemma ReprListPlain(s: string)
    requires forall i :: 0 <= i < |s| ==> ' ' <= s[i] <= '~' && s[i] != '\\' && s[i] != '\''
    ensures ReprList([s]) == "['" + s + "']"
  {
    ReprPlain(s);
    var q := "'" + s + "'";
    assert ReprItems([s]) == [q];
    assert Strings.Join([q], ", ") == q;
    assert "[" + q + "]" == "['" + s + "']";
  }
}

=== FILE: Retry.dfy ===
/** The `retry` decorator of src/shared/retry.py.

    The wrapped function is modelled by `call`, the outcome of its i-th
    invocation (counted from 0); the decorated call is the run of the
    attempt loop over those outcomes. `sleep(delay)` is counted, not timed. */
module Retry {
  import opened Wrappers

  /** The decorator's default limit, `retry()` with no arguments. */
  const DefaultMaxAttempts: int := 3

  /** What one invocation of the wrapped function did. */
  datatype Attempt<T, E> = Ok(value: T) | Err(error: E)

  /** How the decorated call ended. Every ending but `Raised` returns to the
      caller; only `Returned` hands back a value, the others return `None`. */
  datatype Ending<T, E> =
    | Returned(value: T)
    | Skipped(error: E)       // `skip(e)` held: the loop was left at once
    | Suppressed(error: E)    // the last attempt failed and `suppress(e)` held
    | NotAttempted            // `max_attempts <= 0`: the loop body never ran
    | Raised(error: E)        // the last attempt's exception propagates
  {
    /** The value the decorated function returns, when it returns. */
    function ReturnValue(): Option<T>
      requires !Raised?
    {
      if Returned? then Some(value) else None
    }
  }

  /** The log records the loop emits: the debug line "<name> > attempt i failed"
      and the info lines "Skip exception: e" and "Suppress exception: e". */
  datatype Event<E> = AttemptFailed(attempt: nat) | SkipLogged(error: E) | SuppressLogged(error: E)

  /** The observable effect of one decorated call: how it ended, how many times
      the wrapped function ran, how many times the loop slept, the final value
      of the attempt counter, and the log records in order. */
  datatype Run<T, E> = Run(ending: Ending<T, E>, calls: nat, sleeps: nat, counter: nat, events: seq<Event<E>>)

  /** `skip and skip(e)` / `suppress and suppress(e)`: an absent predicate never holds. */
  predicate Holds<E>(p: Option<E -> bool>, e: E) {
    p.Some? && p.value(e)
  }

  /** A failed attempt that `skip` does not cut short: the loop counts it. */
  predicate CountedFailure<T, E>(a: Attempt<T, E>, skip: Option<E -> bool>) {
    a.Err? && !Holds(skip, a.error)
  }

  /** The "attempt i failed" records for i = lo, ..., hi - 1. */
  function FailureEvents<E>(lo: nat, hi: nat): (r: seq<Event<E>>)
    ensures |r| == if lo <= hi then hi - lo else 0
    ensures forall i :: 0 <= i < |r| ==> r[i] == AttemptFailed(lo + i)
    decreases hi - lo
  {
    if lo >= hi then [] else [AttemptFailed(lo)] + FailureEvents(lo + 1, hi)
  }

  /** The info record that closes a skipped or suppressed run. */
  function InfoEvents<T, E>(ending: Ending<T, E>): seq<Event<E>> {
    match ending
    case Skipped(e) => [SkipLogged(e)]
    case Suppressed(e) => [SuppressLogged(e)]
    case _ => []
  }

  /** What a run of the loop entered with the counter at `attempts` (below the
      limit) must look like: the counted failures come first, then exactly one
      of success, skip, suppression or re-raise, with the calls, sleeps and log
      records that path makes. */
  ghost predicate Describes<T, E>(call: nat -> Attempt<T, E>, maxAttempts: int,
                            skip: Option<E -> bool>, suppress: Option<E -> bool>,
                            attempts: nat, run: Run<T, E>)
  {
    && attempts < maxAttempts
    && attempts <= run.counter <= maxAttempts
    && !run.ending.NotAttempted?
    && (forall i :: attempts <= i < run.counter ==> CountedFailure(call(i), skip))
    && (run.ending.Returned? ==> run.counter < maxAttempts && call(run.counter) == Ok(run.ending.value))
    && (run.ending.Skipped? ==>
          run.counter < maxAttempts && call(run.counter) == Err(run.ending.error) && Holds(skip, run.ending.error))
    && (run.ending.Raised? || run.ending.Suppressed? <==> run.counter == maxAttempts)
    && (run.ending.Raised? ==>
          call(maxAttempts - 1) == Err(run.ending.error) && !Holds(suppress, run.ending.error))
    && (run.ending.Suppressed? ==>
          call(maxAttempts - 1) == Err(run.ending.error) && Holds(suppress, run.ending.error))
    && run.calls == run.counter - attempts + (if run.ending.Returned? || run.ending.Skipped? then 1 else 0)
    && run.sleeps == run.counter - attempts - (if run.counter == maxAttempts then 1 else 0)
    && run.events == FailureEvents(attempts + 1, run.counter + 1) + InfoEvents(run.ending)
  }

  /** The loop of `decorated`, entered with the attempt counter at `attempts`.
      The counter only grows, and never past the limit once the loop is entered. */
  function Loop<T, E>(call: nat -> Attempt<T, E>, maxAttempts: int,
                      skip: Option<E -> bool>, suppress: Option<E -> bool>,
                      attempts: nat): (run: Run<T, E>)
    requires attempts == 0 || attempts < maxAttempts
    ensures maxAttempts <= attempts ==> run == Run(NotAttempted, 0, 0, attempts, [])
    ensures attempts < maxAttempts ==> attempts <= run.counter <= maxAttempts && !run.ending.NotAttempted?
    decreases maxAttempts - attempts
  {
    if maxAttempts <= attempts then Run(NotAttempted, 0, 0, attempts, [])
    else match call(attempts)
      case Ok(v) => Run(Returned(v), 1, 0, attempts, [])
      case Err(e) =>
        if Holds(skip, e) then Run(Skipped(e), 1, 0, attempts, [SkipLogged(e)])
        else if attempts + 1 == maxAttempts then
          if Holds(suppress, e) then Run(Suppressed(e), 1, 0, attempts + 1, [AttemptFailed(attempts + 1), SuppressLogged(e)])
          else Run(Raised(e), 1, 0, attempts + 1, [AttemptFailed(attempts + 1)])
        else
          var rest := Loop(call, maxAttempts, skip, suppress, attempts + 1);
          Run(rest.ending, rest.calls + 1, rest.sleeps + 1, rest.counter, [AttemptFailed(attempts + 1)] + rest.events)
  }

  /** Every run of the entered loop is described by `Describes`. */
  lemma {:induction false} LoopDescribed<T, E>(call: nat -> Attempt<T, E>, maxAttempts: int,
                                               skip: Option<E -> bool>, suppress: Option<E -> bool>,
                                               attempts: nat)
    requires attempts < maxAttempts
    ensures Describes(call, maxAttempts, skip, suppress, attempts, Loop(call, maxAttempts, skip, suppress, attempts))
    decreases maxAttempts - attempts
  {
    if CountedFailure(call(attempts), skip) && attempts + 1 < maxAttempts {
      var rest := Loop(call, maxAttempts, skip, suppress, attempts + 1);
      LoopDescribed(call, maxAttempts, skip, suppress, attempts + 1);
      CountedFailureStep(call, maxAttempts, skip, suppress, attempts, rest);
    } else {
      LastTurnDescribed(call, maxAttempts, skip, suppress, attempts);
    }
  }

  /** A run that ends with the attempt it was entered at is described. */
  lemma LastTurnDescribed<T, E>(call: nat -> Attempt<T, E>, maxAttempts: int,
                                skip: Option<E -> bool>, suppress: Option<E -> bool>, attempts: nat)
    requires attempts < maxAttempts
    requires !CountedFailure(call(attempts), skip) || attempts + 1 == maxAttempts
    ensures Describes(call, maxAttempts, skip, suppress, attempts, Loop(call, maxAttempts, skip, suppress, attempts))
  {
    assert FailureEvents<E>(attempts + 1, attempts + 1) == [];
    assert FailureEvents<E>(attempts + 1, attempts + 2) == [AttemptFailed(attempts + 1)];
  }

  /** One counted failure below the limit followed by a described run is a described run. */
  lemma CountedFailureStep<T, E>(call: nat -> Attempt<T, E>, maxAttempts: int,
                                 skip: Option<E -> bool>, suppress: Option<E -> bool>,
                                 attempts: nat, rest: Run<T, E>)
    requires attempts + 1 < maxAttempts && CountedFailure(call(attempts), skip)
    requires Describes(call, maxAttempts, skip, suppress, attempts + 1, rest)
    ensures Describes(call, maxAttempts, skip, suppress, attempts,
                      Run(rest.ending, rest.calls + 1, rest.sleeps + 1, rest.counter,
                          [AttemptFailed(attempts + 1)] + rest.events))
  {
    assert FailureEvents<E>(attempts + 1, rest.counter + 1)
        == [AttemptFailed(attempts + 1)] + FailureEvents<E>(attempts + 2, rest.counter + 1);
  }

  /** `retry(max_attempts, delay, skip, suppress)(func)(...)`. */
  function Retry<T, E>(call: nat -> Attempt<T, E>, maxAttempts: int,
                       skip: Option<E -> bool>, suppress: Option<E -> bool>): (run: Run<T, E>)
    ensures maxAttempts <= 0 <==> run.ending.NotAttempted?
    ensures run.counter <= (if maxAttempts > 0 then maxAttempts else 0)
  {
    Loop(call, maxAttempts, skip, suppress, 0)
  }

  /** The attempt counter never exceeds `max_attempts`, and the function is
      called at most `max_attempts` times. */
  lemma CallsBounded<T, E>(call: nat -> Attempt<T, E>, maxAttempts: int,
                           skip: Option<E -> bool>, suppress: Option<E -> bool>)
    ensures var run := Retry(call, maxAttempts, skip, suppress);
      run.counter <= run.calls <= (if maxAttempts > 0 then maxAttempts else 0)
  {
    if maxAttempts > 0 {
      LoopDescribed(call, maxAttempts, skip, suppress, 0);
    }
  }

  /** The run `rest` preceded by `calls` calls, `sleeps` sleeps and the records `events`. */
  function After<T, E>(calls: nat, sleeps: nat, events: seq<Event<E>>, rest: Run<T, E>): Run<T, E> {
    Run(rest.ending, calls + rest.calls, sleeps + rest.sleeps, rest.counter, events + rest.events)
  }

  /** One turn of the loop below the limit: the run either ends with this
      attempt or is one failure, one sleep and one record ahead of the run
      from the next attempt. */
  lemma LoopStep<T, E>(call: nat -> Attempt<T, E>, maxAttempts: int,
                       skip: Option<E -> bool>, suppress: Option<E -> bool>, attempts: nat)
    requires attempts < maxAttempts
    ensures call(attempts).Ok? ==>
      Loop(call, maxAttempts, skip, suppress, attempts) == Run(Returned(call(attempts).value), 1, 0, attempts, [])
    ensures call(attempts).Err? && Holds(skip, call(attempts).error) ==>
      Loop(call, maxAttempts, skip, suppress, attempts) == Run(Skipped(call(attempts).error), 1, 0, attempts, [SkipLogged(call(attempts).error)])
    ensures CountedFailure(call(attempts), skip) && attempts + 1 == maxAttempts && Holds(suppress, call(attempts).error) ==>
      Loop(call, maxAttempts, skip, suppress, attempts)
        == Run(Suppressed(call(attempts).error), 1, 0, attempts + 1, [AttemptFailed(attempts + 1), SuppressLogged(call(attempts).error)])
    ensures CountedFailure(call(attempts), skip) && attempts + 1 == maxAttempts && !Holds(suppress, call(attempts).error) ==>
      Loop(call, maxAttempts, skip, suppress, attempts) == Run(Raised(call(attempts).error), 1, 0, attempts + 1, [AttemptFailed(attempts + 1)])
    ensures CountedFailure(call(attempts), skip) && attempts + 1 < maxAttempts ==>
      Loop(call, maxAttempts, skip, suppress, attempts)
        == After(1, 1, [AttemptFailed(attempts + 1)], Loop(call, maxAttempts, skip, suppress, attempts + 1))
  {
  }

  /** Running `rest` after two stretches is running it after their sum. */
  lemma AfterAfter<T, E>(calls: nat, sleeps: nat, events: seq<Event<E>>,
                         calls2: nat, sleeps2: nat, events2: seq<Event<E>>, rest: Run<T, E>)
    ensures After(calls, sleeps, events, After(calls2, sleeps2, events2, rest))
         == After(calls + calls2, sleeps + sleeps2, events + events2, rest)
  {
    assert events + (events2 + rest.events) == (events + events2) + rest.events;
  }

  /** One pass of the `while` body, entered below the limit with `calls`
      calls, `sleeps` sleeps and the records `events` behind it. Either the
      decorated call ends here with `run`, or the pass ends with the counter
      one higher and the same overall run still ahead. */
  method Turn<T, E>(call: nat -> Attempt<T, E>, maxAttempts: int,
                    skip: Option<E -> bool>, suppress: Option<E -> bool>,
                    attempts: nat, calls: nat, sleeps: nat, events: seq<Event<E>>)
    returns (done: bool, run: Run<T, E>, attempts': nat, calls': nat, sleeps': nat, events': seq<Event<E>>)
    requires attempts < maxAttempts
    ensures done ==> run == After(calls, sleeps, events, Loop(call, maxAttempts, skip, suppress, attempts))
    ensures !done ==> attempts' == attempts + 1 && attempts' < maxAttempts
    ensures !done ==>
      After(calls, sleeps, events, Loop(call, maxAttempts, skip, suppress, attempts))
        == After(calls', sleeps', events', Loop(call, maxAttempts, skip, suppress, attempts'))
  {
    LoopStep(call, maxAttempts, skip, suppress, attempts);
    done, run, attempts', calls', sleeps', events' := true, Run(NotAttempted, 0, 0, 0, []), attempts, calls + 1, sleeps, events;
    var outcome := call(attempts);
    if outcome.Ok? {
      assert events + [] == events;
      run := Run(Returned(outcome.value), calls', sleeps, attempts, events);
      return;
    }
    var e := outcome.error;
    if Holds(skip, e) {
      run := Run(Skipped(e), calls', sleeps, attempts, events + [SkipLogged(e)]);
      return;
    }
    events' := events + [AttemptFailed(attempts + 1)];
    attempts' := attempts + 1;
    if attempts' == maxAttempts {
      if Holds(suppress, e) {
        assert events + [AttemptFailed(attempts'), SuppressLogged(e)] == events' + [SuppressLogged(e)];
        run := Run(Suppressed(e), calls', sleeps, attempts', events' + [SuppressLogged(e)]);
        return;
      }
      run := Run(Raised(e), calls', sleeps, attempts', events');
      return;
    }
    sleeps' := sleeps + 1;
    done := false;
    AfterAfter(calls, sleeps, events, 1, 1, [AttemptFailed(attempts')],
               Loop(call, maxAttempts, skip, suppress, attempts'));
  }

  /** The decorator's `while` loop, returning at the same points as the
      Python code. It computes exactly `Retry`. */
  method RetryLoop<T, E>(call: nat -> Attempt<T, E>, maxAttempts: int,
                         skip: Option<E -> bool>, suppress: Option<E -> bool>) returns (run: Run<T, E>)
    ensures run == Retry(call, maxAttempts, skip, suppress)
  {
    var attempts: nat := 0;
    var calls: nat := 0;
    var sleeps: nat := 0;
    var events: seq<Event<E>> := [];
    ghost var whole := Loop(call, maxAttempts, skip, suppress, 0);
    while attempts < maxAttempts
      invariant attempts == 0 || attempts < maxAttempts
      invariant whole == After(calls, sleeps, events, Loop(call, maxAttempts, skip, suppress, attempts))
      decreases maxAttempts - attempts
    {
      var done;
      done, run, attempts, calls, sleeps, events := Turn(call, maxAttempts, skip, suppress, attempts, calls, sleeps, events);
      if done {
        return;
      }
    }
    return Run(NotAttempted, calls, sleeps, attempts, events);
  }

  /** The log of any decorated call: "attempt 1 failed", ..., "attempt n
      failed" for the n counted failures, in increasing order and once each,
      followed by the skip or suppress record when the run ended that way. */
  lemma AttemptLog<T, E>(call: nat -> Attempt<T, E>, maxAttempts: int,
                         skip: Option<E -> bool>, suppress: Option<E -> bool>)
    ensures var run := Retry(call, maxAttempts, skip, suppress);
      run.events == FailureEvents(1, run.counter + 1) + InfoEvents(run.ending)
  {
    if maxAttempts > 0 {
      LoopDescribed(call, maxAttempts, skip, suppress, 0);
    }
  }

  /** A first attempt that succeeds is the only call, and its value is returned unchanged. */
  lemma FirstAttemptSucceeds<T, E>(call: nat -> Attempt<T, E>, maxAttempts: int,
                                   skip: Option<E -> bool>, suppress: Option<E -> bool>, v: T)
    requires maxAttempts >= 1 && call(0) == Ok(v)
    ensures Retry(call, maxAttempts, skip, suppress) == Run(Returned(v), 1, 0, 0, [])
  {
    LoopDescribed(call, maxAttempts, skip, suppress, 0);
  }

  /** k counted failures followed by a success, with k below the limit: the
      success value is returned after k + 1 calls and k sleeps, and the log
      holds "attempt 1 failed" ... "attempt k failed" in that order. */
  lemma SucceedsAfterFailures<T, E>(call: nat -> Attempt<T, E>, maxAttempts: int,
                                    skip: Option<E -> bool>, suppress: Option<E -> bool>, k: nat, v: T)
    requires k < maxAttempts
    requires forall i :: 0 <= i < k ==> CountedFailure(call(i), skip)
    requires call(k) == Ok(v)
    ensures Retry(call, maxAttempts, skip, suppress) == Run(Returned(v), k + 1, k, k, FailureEvents(1, k + 1))
  {
    LoopDescribed(call, maxAttempts, skip, suppress, 0);
  }

  /** Every attempt fails and `suppress` is absent or declines the last error:
      that error is re-raised after exactly `max_attempts` calls and
      `max_attempts - 1` sleeps. */
  lemma AllAttemptsFailRaises<T, E>(call: nat -> Attempt<T, E>, maxAttempts: int,
                                    skip: Option<E -> bool>, suppress: Option<E -> bool>)
    requires maxAttempts >= 1
    requires forall i :: 0 <= i < maxAttempts ==> CountedFailure(call(i), skip)
    requires call(maxAttempts - 1).Err? && !Holds(suppress, call(maxAttempts - 1).error)
    ensures Retry(call, maxAttempts, skip, suppress)
         == Run(Raised(call(maxAttempts - 1).error), maxAttempts, maxAttempts - 1, maxAttempts,
                FailureEvents(1, maxAttempts + 1))
  {
    LoopDescribed(call, maxAttempts, skip, suppress, 0);
  }

  /** Every attempt fails and `suppress` accepts the last error: `None` is
      returned after `max_attempts` calls, nothing is raised, and the log ends
      with the suppression record. */
  lemma AllAttemptsFailSuppressed<T, E>(call: nat -> Attempt<T, E>, maxAttempts: int,
                                        skip: Option<E -> bool>, suppress: Option<E -> bool>)
    requires maxAttempts >= 1
    requires forall i :: 0 <= i < maxAttempts ==> CountedFailure(call(i), skip)
    requires call(maxAttempts - 1).Err? && Holds(suppress, call(maxAttempts - 1).error)
    ensures var e := call(maxAttempts - 1).error;
      Retry(call, maxAttempts, skip, suppress)
        == Run(Suppressed(e), maxAttempts, maxAttempts - 1, maxAttempts,
               FailureEvents(1, maxAttempts + 1) + [SuppressLogged(e)])
    ensures Retry(call, maxAttempts, skip, suppress).ending.ReturnValue() == None
  {
    LoopDescribed(call, maxAttempts, skip, suppress, 0);
  }

  /** A failure that `skip` accepts ends the loop at once with `None`: no
      further call or sleep, and the counter is not incremented for it. */
  lemma SkipStops<T, E>(call: nat -> Attempt<T, E>, maxAttempts: int,
                        skip: Option<E -> bool>, suppress: Option<E -> bool>, k: nat, e: E)
    requires k < maxAttempts
    requires forall i :: 0 <= i < k ==> CountedFailure(call(i), skip)
    requires call(k) == Err(e) && Holds(skip, e)
    ensures Retry(call, maxAttempts, skip, suppress)
         == Run(Skipped(e), k + 1, k, k, FailureEvents(1, k + 1) + [SkipLogged(e)])
  {
    LoopDescribed(call, maxAttempts, skip, suppress, 0);
  }

  /** The decorated call raises exactly when every one of the `max_attempts`
      attempts is a counted failure and `suppress` declines the last one. */
  lemma RaisesIff<T, E>(call: nat -> Attempt<T, E>, maxAttempts: int,
                        skip: Option<E -> bool>, suppress: Option<E -> bool>)
    ensures Retry(call, maxAttempts, skip, suppress).ending.Raised? <==>
      && maxAttempts >= 1
      && (forall i :: 0 <= i < maxAttempts ==> CountedFailure(call(i), skip))
      && !Holds(suppress, call(maxAttempts - 1).error)
  {
    if maxAttempts >= 1
       && (forall i :: 0 <= i < maxAttempts ==> CountedFailure(call(i), skip))
       && !Holds(suppress, call(maxAttempts - 1).error) {
      AllAttemptsFailRaises(call, maxAttempts, skip, suppress);
    } else if maxAttempts >= 1 {
      LoopDescribed(call, maxAttempts, skip, suppress, 0);
    }
  }

  /** A non-positive `max_attempts` never calls the function and returns `None`. */
  lemma NoAttemptsWhenLimitNonPositive<T, E>(call: nat -> Attempt<T, E>, maxAttempts: int,
                                             skip: Option<E -> bool>, suppress: Option<E -> bool>)
    requires maxAttempts <= 0
    ensures Retry(call, maxAttempts, skip, suppress) == Run(NotAttempted, 0, 0, 0, [])
  {
  }

  /** The mocked functions and predicates of the decorator's unit tests;
      an exception is represented by its message. */
  const ReturnsSuccess: nat -> Attempt<string, string> := (i: nat) => Ok("Success")
  const AlwaysFails: nat -> Attempt<string, string> := (i: nat) => Err("Internal Error")
  const FailsOnce: nat -> Attempt<string, string> :=
    (i: nat) => if i == 0 then Err("Internal Error") else Ok("Success")
  const IsInternalError: string -> bool := (e: string) => e == "Internal Error"

  /** The decorator's unit tests, under the default limit of 3: a function
      that succeeds is called once; one that always fails is called three
      times and its exception re-raised; one that fails once is called twice. */
  lemma PlainScenarios()
    ensures Retry(ReturnsSuccess, DefaultMaxAttempts, None, None) == Run(Returned("Success"), 1, 0, 0, [])
    ensures Retry(AlwaysFails, DefaultMaxAttempts, None, None)
         == Run(Raised("Internal Error"), 3, 2, 3, [AttemptFailed(1), AttemptFailed(2), AttemptFailed(3)])
    ensures Retry(FailsOnce, DefaultMaxAttempts, None, None)
         == Run(Returned("Success"), 2, 1, 1, [AttemptFailed(1)])
  {
    SucceedsAfterFailures(FailsOnce, DefaultMaxAttempts, None, None, 1, "Success");
    AllAttemptsFailRaises(AlwaysFails, DefaultMaxAttempts, None, None);
  }

  /** The decorator's unit tests for the predicates: a skipped error returns
      `None` after one call; a suppressed error returns `None` after three. */
  lemma PredicateScenarios()
    ensures Retry(AlwaysFails, DefaultMaxAttempts, Some(IsInternalError), None)
         == Run(Skipped("Internal Error"), 1, 0, 0, [SkipLogged("Internal Error")])
    ensures Retry(AlwaysFails, DefaultMaxAttempts, None, Some(IsInternalError))
         == Run(Suppressed("Internal Error"), 3, 2, 3,
                [AttemptFailed(1), AttemptFailed(2), AttemptFailed(3), SuppressLogged("Internal Error")])
  {
    SkipStops(AlwaysFails, DefaultMaxAttempts, Some(IsInternalError), None, 0, "Internal Error");
    AllAttemptsFailSuppressed(AlwaysFails, DefaultMaxAttempts, None, Some(IsInternalError));
  }
}

=== FILE: Storage.dfy ===
/** The file and folder functions of src/shared/storage.py over an abstract
    blob container: a map from blob names to contents. Local files are a
    second map of the same kind. Contents are abstract: a serialised dict,
    an encoded text, or bytes the model does not interpret. */
module Storage {
  import opened Wrappers
  import Strings
  import Files
  import Retry

  /** A dict handed to `save_file`; its JSON text is not modelled. */
  datatype Doc = Doc(id: nat)

  /** The `data` argument of `save_file`: a dict or a str. */
  datatype Data = DictData(doc: Doc) | StrData(text: string)

  /** The bytes of a blob or a local file: `json.dumps(doc)` encoded, a text
      encoded as UTF-8, or other bytes. */
  datatype Content = Dumped(doc: Doc) | Encoded(text: string) | Raw(id: nat)

  type Container = map<string, Content>
  type LocalFiles = map<string, Content>

  /** The exceptions the functions let through: `TypeError` from
      `save_file`, `ResourceNotFoundError` for a missing blob, and
      `FileNotFoundError` from the local file system. */
  datatype StorageError = TypeMismatch(path: string) | BlobNotFound(name: string) | NoSuchPath(local: string)

  /** What `read_file` returns: the dict `json.loads` gives back, the decoded
      text, or content whose decoding the model leaves open. */
  datatype ReadValue = Parsed(doc: Doc) | Decoded(text: string) | Uninterpreted(content: Content)

  /** The content `save_file` uploads for data of the kind the path calls for. */
  function Serialise(data: Data): Content {
    match data
    case DictData(d) => Dumped(d)
    case StrData(s) => Encoded(s)
  }

  /** The key and value a container gains; all other keys are left alone. */
  ghost predicate Updated(before: Container, after: Container, key: string, value: Content) {
    && key in after && after[key] == value
    && forall k :: k != key ==> (k in after <==> k in before) && (k in before ==> after[k] == before[k])
  }

  /** `save_file(path, data)`: a dict must go to a JSON path and a str to any
      other; on a mismatch nothing is written. Otherwise the blob at `path`
      is written, replacing any earlier one. */
  function SaveFile(c: Container, path: string, data: Data): (r: Result<Container, StorageError>)
    ensures r.Failure? <==> data.DictData? != Files.IsJson(path)
    ensures r.Failure? ==> r.error == TypeMismatch(path)
    ensures r.Success? ==> Updated(c, r.value, path, Serialise(data))
  {
    if data.DictData? != Files.IsJson(path) then Failure(TypeMismatch(path))
    else Success(c[path := Serialise(data)])
  }

  /** `read_file(path)`: the blob, parsed as JSON on a JSON path and decoded
      as text otherwise. Only the contents `save_file` writes are read back
      concretely. */
  function ReadFile(c: Container, path: string): (r: Result<ReadValue, StorageError>)
    ensures r.Failure? <==> path !in c
    ensures r.Failure? ==> r.error == BlobNotFound(path)
  {
    if path !in c then Failure(BlobNotFound(path))
    else match c[path]
      case Dumped(d) => if Files.IsJson(path) then Success(Parsed(d)) else Success(Uninterpreted(c[path]))
      case Encoded(s) => if Files.IsJson(path) then Success(Uninterpreted(c[path])) else Success(Decoded(s))
      case Raw(_) => Success(Uninterpreted(c[path]))
  }

  /** What saving `data` promises to read back. */
  function Expected(data: Data): ReadValue {
    match data
    case DictData(d) => Parsed(d)
    case StrData(s) => Decoded(s)
  }

  /** Reading a path back after a successful save gives the saved data: the
      text itself on a text path, the dict on a JSON path. */
  lemma ReadAfterSave(c: Container, path: string, data: Data)
    requires SaveFile(c, path, data).Success?
    ensures ReadFile(SaveFile(c, path, data).value, path) == Success(Expected(data))
  {
  }

  /** The second save to a path wins, as in the overwrite tests. */
  lemma SaveOverwrites(c: Container, path: string, first: Data, second: Data)
    requires SaveFile(c, path, first).Success? && SaveFile(c, path, second).Success?
    ensures SaveFile(SaveFile(c, path, first).value, path, second) == SaveFile(c, path, second)
  {
    assert c[path := Serialise(first)][path := Serialise(second)] == c[path := Serialise(second)];
  }

  /** `save_file` under its `@retry()`: each of the three attempts repeats
      the same upload on the same container. */
  function SaveAttempts(c: Container, path: string, data: Data): nat -> Retry.Attempt<Container, StorageError> {
    (i: nat) => match SaveFile(c, path, data)
      case Success(after) => Retry.Ok(after)
      case Failure(e) => Retry.Err(e)
  }

  /** A mismatched save is retried: the `TypeError` is raised after three
      calls and two sleeps, and the container is never written. */
  lemma MismatchRetriedThenRaised(c: Container, path: string, data: Data)
    requires data.DictData? != Files.IsJson(path)
    ensures Retry.Retry(SaveAttempts(c, path, data), Retry.DefaultMaxAttempts, None, None)
         == Retry.Run(Retry.Raised(TypeMismatch(path)), 3, 2, 3, Retry.FailureEvents(1, 4))
  {
    var call := SaveAttempts(c, path, data);
    forall i | 0 <= i < Retry.DefaultMaxAttempts
      ensures Retry.CountedFailure(call(i), None)
    {
    }
    Retry.AllAttemptsFailRaises(call, Retry.DefaultMaxAttempts, None, None);
  }

  /** `check_file(path)`: whether a blob of exactly that name exists. */
  function CheckFile(c: Container, path: string): bool {
    path in c
  }

  /** The blobs `list_blobs(name_starts_with=prefix)` enumerates. */
  function PrefixKeys(c: Container, prefix: string): (r: set<string>)
    ensures forall k :: k in r <==> k in c && Strings.StartsWith(k, prefix)
  {
    set k | k in c && Strings.StartsWith(k, prefix)
  }

  /** `check_folder(path)`: whether any blob name starts with `path`. A blob
      named `path` itself counts, and the empty path matches any blob. */
  function CheckFolder(c: Container, path: string): (b: bool)
    ensures b <==> exists k :: k in c && Strings.StartsWith(k, path)
  {
    var keys := PrefixKeys(c, path);
    if keys == {} then false
    else
      var k :| k in keys;
      true
  }

  /** A listing of the blobs under a prefix, each exactly once, in the
      order the service returns them. */
  ghost predicate IsListing(c: Container, prefix: string, blobs: seq<string>) {
    && (forall i, j :: 0 <= i < j < |blobs| ==> blobs[i] != blobs[j])
    && (forall k :: k in blobs <==> k in PrefixKeys(c, prefix))
  }

  /** The container once every blob under `prefix` is deleted. */
  function Removed(c: Container, prefix: string): (r: Container)
    ensures forall k :: k in r <==> k in c && !Strings.StartsWith(k, prefix)
    ensures forall k :: k in r ==> r[k] == c[k]
  {
    map k | k in c && !Strings.StartsWith(k, prefix) :: c[k]
  }

  /** `delete_blob` on one name: `ResourceNotFoundError` when it is absent. */
  function DeleteBlob(c: Container, name: string): (r: Result<Container, StorageError>)
    ensures r.Failure? <==> name !in c
    ensures r.Success? ==> r.value == c - {name}
  {
    if name in c then Success(c - {name}) else Failure(BlobNotFound(name))
  }

  /** `remove(path)`: delete every listed blob under `path`, or the blob
      `path` itself when nothing is listed; a `ResourceNotFoundError`
      anywhere ends the deletions silently. Afterwards no blob name starts
      with `path`, everything else is as it was, and removing what does not
      exist changes nothing. */
  method Remove(c: Container, path: string, blobs: seq<string>) returns (r: Container)
    requires IsListing(c, path, blobs)
    ensures r == Removed(c, path)
  {
    r := c;
    if |blobs| > 0 {
      var i := 0;
      while i < |blobs|
        invariant 0 <= i <= |blobs|
        invariant forall k :: k in r <==> k in c && k !in blobs[..i]
        invariant forall k :: k in r ==> r[k] == c[k]
      {
        assert blobs[i] !in blobs[..i];
        assert blobs[i] in PrefixKeys(c, path);
        // a listed blob is still there, so no `ResourceNotFoundError` arises
        var deleted := DeleteBlob(r, blobs[i]);
        assert deleted.Success?;
        r := deleted.value;
        i := i + 1;
        assert blobs[..i] == blobs[..i - 1] + [blobs[i - 1]];
      }
      assert blobs[..i] == blobs;
    } else {
      NothingListedNothingThere(c, path, blobs);
      var deleted := DeleteBlob(r, path);
      // the `ResourceNotFoundError` is suppressed
      assert deleted.Failure?;
    }
    forall k
      ensures k in r <==> k in Removed(c, path)
    {
      assert k in blobs <==> k in PrefixKeys(c, path);
    }
  }

  /** After a removal neither a file nor a folder of that name is found;
      removing what is not there leaves the container as it was. */
  lemma RemoveThenCheck(c: Container, path: string)
    ensures !CheckFile(Removed(c, path), path) && !CheckFolder(Removed(c, path), path)
    ensures !CheckFolder(c, path) ==> Removed(c, path) == c
  {
    assert Strings.StartsWith(path, path);
    if !CheckFolder(c, path) {
      assert forall k :: k in c ==> !Strings.StartsWith(k, path);
    }
  }

  /** A file is also found as a folder of the same name. */
  lemma FileIsFolder(c: Container, path: string)
    requires CheckFile(c, path)
    ensures CheckFolder(c, path)
  {
    assert Strings.StartsWith(path, path);
  }

  /** A blob named `path` is under the prefix `path`, so an empty listing
      means there is no such blob. */
  lemma NothingListedNothingThere(c: Container, path: string, blobs: seq<string>)
    requires IsListing(c, path, blobs) && blobs == []
    ensures path !in c
  {
    assert Strings.StartsWith(path, path);
    assert path !in PrefixKeys(c, path);
  }

  /** The target of `x or default`: the default when `x` is empty. */
  function OrDefault(x: string, default: string): string {
    if x == "" then default else x
  }

  /** `upload_file(file_path, storage_path)`: the local file goes to the
      blob `storage_path`, or to `file_path` when that is empty; a missing
      local file is silently skipped, and so is the empty path, which
      `open` never finds. */
  function UploadFile(c: Container, local: LocalFiles, filePath: string, storagePath: string): (r: Container)
    ensures filePath == "" || filePath !in local ==> r == c
    ensures filePath != "" && filePath in local ==> Updated(c, r, OrDefault(storagePath, filePath), local[filePath])
    ensures filePath != "" && filePath in local && storagePath == "" ==> Updated(c, r, filePath, local[filePath])
  {
    if filePath == "" || filePath !in local then c
    else c[OrDefault(storagePath, filePath) := local[filePath]]
  }

  /** The position of the last `/`, if any. */
  function LastSlash(p: string): (r: Option<nat>)
    ensures r.None? <==> '/' !in p
    ensures r.Some? ==> r.value < |p| && p[r.value] == '/' && '/' !in p[r.value + 1..]
    decreases |p|
  {
    if p == [] then None
    else if p[|p| - 1] == '/' then Some(|p| - 1)
    else
      var r := LastSlash(p[..|p| - 1]);
      assert r.Some? ==> p[r.value + 1..] == p[..|p| - 1][r.value + 1..] + [p[|p| - 1]];
      r
  }

  /** `s.rstrip("/")`. */
  function StripSlashes(s: string): (r: string)
    ensures |r| <= |s| && r == s[..|r|]
    ensures r == [] || r[|r| - 1] != '/'
    ensures forall i :: |r| <= i < |s| ==> s[i] == '/'
    decreases |s|
  {
    if s != [] && s[|s| - 1] == '/' then StripSlashes(s[..|s| - 1]) else s
  }

  /** `os.path.dirname(p)` on POSIX: everything before the last `/`, without
      trailing slashes unless the head is slashes only. */
  function Dirname(p: string): (d: string)
    ensures d == "" <==> '/' !in p
  {
    match LastSlash(p)
    case None => ""
    case Some(i) =>
      var head := p[..i + 1];
      if forall j :: 0 <= j < |head| ==> head[j] == '/' then head
      else
        StripSlashes(head)
  }

  /** What a download leaves behind: the local files and the error, if any. */
  datatype Download = Download(local: LocalFiles, error: Option<StorageError>)

  /** `download_file(storage_path, file_path)` as written: the target is
      `file_path`, or `storage_path` when that is empty. `os.makedirs` of
      the target's directory comes first and raises `FileNotFoundError`
      for the empty path when that directory is the empty string. The
      target is then opened for writing, so it exists, empty, even when
      the blob is missing. */
  function DownloadFileAsWritten(c: Container, local: LocalFiles, storagePath: string, filePath: string): (r: Download)
    ensures '/' !in OrDefault(filePath, storagePath) ==> r == Download(local, Some(NoSuchPath("")))
  {
    var target := OrDefault(filePath, storagePath);
    if Dirname(target) == "" then Download(local, Some(NoSuchPath(Dirname(target))))
    else Fetch(c, local, storagePath, target)
  }

  /** Opening `target` for writing and writing the blob's bytes into it. */
  function Fetch(c: Container, local: LocalFiles, storagePath: string, target: string): (r: Download)
    ensures r.error.None? <==> storagePath in c
    ensures storagePath in c ==> Updated(local, r.local, target, c[storagePath])
    ensures storagePath !in c ==> Updated(local, r.local, target, Encoded(""))
  {
    if storagePath in c then Download(local[target := c[storagePath]], None)
    else Download(local[target := Encoded("")], Some(BlobNotFound(storagePath)))
  }

  /** `download_file` with the directory step skipped when the target has
      no directory part, as the default `file_path` evidently intends; an
      empty target still fails to open. */
  function DownloadFile(c: Container, local: LocalFiles, storagePath: string, filePath: string): (r: Download)
    ensures OrDefault(filePath, storagePath) == "" ==> r == Download(local, Some(NoSuchPath("")))
    ensures OrDefault(filePath, storagePath) != "" ==> r == Fetch(c, local, storagePath, OrDefault(filePath, storagePath))
    ensures '/' in OrDefault(filePath, storagePath) ==> r == DownloadFileAsWritten(c, local, storagePath, filePath)
  {
    var target := OrDefault(filePath, storagePath);
    if target == "" then Download(local, Some(NoSuchPath(target)))
    else Fetch(c, local, storagePath, target)
  }

  /** As written, downloading a top-level blob to its own name fails before
      anything is fetched; the corrected download writes the file. */
  lemma TopLevelDownloadFails(c: Container, local: LocalFiles, name: string)
    requires name != "" && '/' !in name && name in c
    ensures DownloadFileAsWritten(c, local, name, "") == Download(local, Some(NoSuchPath("")))
    ensures DownloadFile(c, local, name, "").error.None?
    ensures Updated(local, DownloadFile(c, local, name, "").local, name, c[name])
  {
  }

  /** The as-written failure is not transient: `@retry()` calls it three
      times, sleeps twice, and raises the `FileNotFoundError`. */
  lemma TopLevelDownloadRaisedAfterRetries(c: Container, local: LocalFiles, name: string)
    requires name != "" && '/' !in name && name in c
    ensures var call := (i: nat) => match DownloadFileAsWritten(c, local, name, "").error
              case Some(e) => Retry.Err(e)
              case None => Retry.Ok(DownloadFileAsWritten(c, local, name, "").local);
            Retry.Retry(call, Retry.DefaultMaxAttempts, None, None).ending == Retry.Raised(NoSuchPath(""))
  {
    var call := (i: nat) => match DownloadFileAsWritten(c, local, name, "").error
      case Some(e) => Retry.Err(e)
      case None => Retry.Ok(DownloadFileAsWritten(c, local, name, "").local);
    forall i | 0 <= i < Retry.DefaultMaxAttempts
      ensures call(i) == Retry.Err(NoSuchPath(""))
    {
    }
    Retry.AllAttemptsFailRaises(call, Retry.DefaultMaxAttempts, None, None);
  }

  /** Uploading a local file and downloading its blob again gives the
      file's content back at the download target. */
  lemma UploadThenDownload(c: Container, local: LocalFiles, filePath: string, storagePath: string, target: string)
    requires filePath != "" && filePath in local && target != ""
    ensures DownloadFile(UploadFile(c, local, filePath, storagePath), local, OrDefault(storagePath, filePath), target)
         == Download(local[target := local[filePath]], None)
  {
  }

  /** The local path `download_folder` gives the blob `name`: the folder
      root followed by the name with the storage prefix removed. */
  function FolderTarget(storagePath: string, root: string, name: string): string
    requires Strings.StartsWith(name, storagePath)
  {
    root + name[|storagePath|..]
  }

  /** Distinct blobs under the prefix land on distinct local paths. */
  lemma FolderTargetInjective(storagePath: string, root: string, a: string, b: string)
    requires Strings.StartsWith(a, storagePath) && Strings.StartsWith(b, storagePath)
    requires FolderTarget(storagePath, root, a) == FolderTarget(storagePath, root, b)
    ensures a == b
  {
    var n := |storagePath|;
    assert a[n..] == FolderTarget(storagePath, root, a)[|root|..];
    assert b[n..] == FolderTarget(storagePath, root, b)[|root|..];
    assert a == a[..n] + a[n..] && b == b[..n] + b[n..];
  }

  /** `download_folder(storage_path, folder_root_path)` as written: every
      listed blob is downloaded, in listing order, with the `download_file`
      as written, to its folder target; the first failure ends the loop.
      `c` is the container the blobs are fetched from, which need not be
      the one that was listed. */
  function DownloadAllAsWritten(c: Container, local: LocalFiles, storagePath: string, root: string, blobs: seq<string>): (r: Download)
    requires forall i :: 0 <= i < |blobs| ==> Strings.StartsWith(blobs[i], storagePath)
    decreases |blobs|
  {
    if blobs == [] then Download(local, None)
    else
      var d := DownloadFileAsWritten(c, local, blobs[0], FolderTarget(storagePath, root, blobs[0]));
      if d.error.Some? then d
      else DownloadAllAsWritten(c, d.local, storagePath, root, blobs[1..])
  }

  /** The local path `download_file` writes for a blob of the folder: its
      folder target, or the blob's own name when that target is empty. */
  function LocalTarget(storagePath: string, root: string, name: string): string
    requires Strings.StartsWith(name, storagePath)
  {
    OrDefault(FolderTarget(storagePath, root, name), name)
  }

  /** One blob of the folder as written: it fails exactly when its local
      path has no directory part, with the error `os.makedirs("")` raises
      and nothing written. */
  lemma FolderStepAsWritten(c: Container, local: LocalFiles, storagePath: string, root: string, name: string)
    requires name in c && Strings.StartsWith(name, storagePath)
    ensures var d := DownloadFileAsWritten(c, local, name, FolderTarget(storagePath, root, name));
      && (d.error.None? <==> '/' in LocalTarget(storagePath, root, name))
      && (d.error.Some? ==> d == Download(local, Some(NoSuchPath(""))))
  {
  }

  /** As written, the folder download fails exactly when some blob's local
      path has no directory part. */
  lemma {:induction false} DownloadAllAsWrittenFails(c: Container, local: LocalFiles, storagePath: string, root: string, blobs: seq<string>)
    requires forall i :: 0 <= i < |blobs| ==> blobs[i] in c && Strings.StartsWith(blobs[i], storagePath)
    ensures DownloadAllAsWritten(c, local, storagePath, root, blobs).error.None? <==>
              forall i :: 0 <= i < |blobs| ==> '/' in LocalTarget(storagePath, root, blobs[i])
    decreases |blobs|
  {
    if blobs != [] {
      FolderStepAsWritten(c, local, storagePath, root, blobs[0]);
      var d := DownloadFileAsWritten(c, local, blobs[0], FolderTarget(storagePath, root, blobs[0]));
      if d.error.None? {
        DownloadAllAsWrittenFails(c, d.local, storagePath, root, blobs[1..]);
        assert forall i :: 0 <= i < |blobs| - 1 ==> blobs[1..][i] == blobs[i + 1];
      }
    }
  }

  /** A folder download that meets a blob whose local path has no directory
      part raises the error of `os.makedirs("")`, with exactly the blobs
      before it downloaded. */
  lemma {:induction false} DownloadAllAsWrittenError(c: Container, local: LocalFiles, storagePath: string, root: string, blobs: seq<string>, j: nat)
    requires forall i :: 0 <= i < |blobs| ==> blobs[i] in c && Strings.StartsWith(blobs[i], storagePath)
    requires j < |blobs| && '/' !in LocalTarget(storagePath, root, blobs[j])
    requires forall i :: 0 <= i < j ==> '/' in LocalTarget(storagePath, root, blobs[i])
    ensures DownloadAllAsWritten(c, local, storagePath, root, blobs)
         == Download(DownloadAll(c, local, storagePath, root, blobs[..j]), Some(NoSuchPath("")))
    decreases |blobs|
  {
    FolderStepAsWritten(c, local, storagePath, root, blobs[0]);
    if j > 0 {
      var target := FolderTarget(storagePath, root, blobs[0]);
      var d := DownloadFileAsWritten(c, local, blobs[0], target);
      assert d == DownloadFile(c, local, blobs[0], target);
      assert blobs[1..][j - 1] == blobs[j];
      assert forall i :: 0 <= i < j - 1 ==> blobs[1..][i] == blobs[i + 1];
      assert blobs[..j][0] == blobs[0] && blobs[..j][1..] == blobs[1..][..j - 1];
      DownloadAllAsWrittenError(c, d.local, storagePath, root, blobs[1..], j - 1);
    } else {
      assert blobs[..0] == [];
    }
  }

  /** When every local path has a directory part, the folder download as
      written and the corrected one agree and nothing is raised. */
  lemma {:induction false} DownloadAllAgrees(c: Container, local: LocalFiles, storagePath: string, root: string, blobs: seq<string>)
    requires forall i :: 0 <= i < |blobs| ==> blobs[i] in c && Strings.StartsWith(blobs[i], storagePath)
    requires forall i :: 0 <= i < |blobs| ==> '/' in FolderTarget(storagePath, root, blobs[i])
    ensures DownloadAllAsWritten(c, local, storagePath, root, blobs) == Download(DownloadAll(c, local, storagePath, root, blobs), None)
    decreases |blobs|
  {
    if blobs != [] {
      var target := FolderTarget(storagePath, root, blobs[0]);
      assert OrDefault(target, blobs[0]) == target;
      var d := DownloadFileAsWritten(c, local, blobs[0], target);
      assert d == DownloadFile(c, local, blobs[0], target);
      assert forall i :: 0 <= i < |blobs| - 1 ==> blobs[1..][i] == blobs[i + 1];
      DownloadAllAgrees(c, d.local, storagePath, root, blobs[1..]);
    }
  }

  /** The folder download with the corrected `download_file`: every listed
      blob is downloaded, in listing order, to its local path. */
  function DownloadAll(c: Container, local: LocalFiles, storagePath: string, root: string, blobs: seq<string>): (r: LocalFiles)
    requires forall i :: 0 <= i < |blobs| ==> blobs[i] in c && Strings.StartsWith(blobs[i], storagePath)
    decreases |blobs|
  {
    if blobs == [] then local
    else
      var target := FolderTarget(storagePath, root, blobs[0]);
      DownloadAll(c, DownloadFile(c, local, blobs[0], target).local, storagePath, root, blobs[1..])
  }

  /** After a folder download, each blob under the prefix sits at its folder
      target with its content, and every other local file is untouched; no
      blob outside the prefix is read. */
  lemma {:induction false} DownloadAllContents(c: Container, local: LocalFiles, storagePath: string, root: string, blobs: seq<string>)
    requires forall i :: 0 <= i < |blobs| ==> blobs[i] in c && Strings.StartsWith(blobs[i], storagePath)
    requires forall i :: 0 <= i < |blobs| ==> FolderTarget(storagePath, root, blobs[i]) != ""
    ensures forall i :: 0 <= i < |blobs| ==>
              var t := FolderTarget(storagePath, root, blobs[i]);
              t in DownloadAll(c, local, storagePath, root, blobs) && DownloadAll(c, local, storagePath, root, blobs)[t] == c[blobs[i]]
    ensures forall p :: p in local && (forall i :: 0 <= i < |blobs| ==> p != FolderTarget(storagePath, root, blobs[i])) ==>
              p in DownloadAll(c, local, storagePath, root, blobs) && DownloadAll(c, local, storagePath, root, blobs)[p] == local[p]
    ensures forall p :: p in DownloadAll(c, local, storagePath, root, blobs) ==>
              p in local || exists i :: 0 <= i < |blobs| && p == FolderTarget(storagePath, root, blobs[i])
    decreases |blobs|
  {
    if blobs != [] {
      var target := FolderTarget(storagePath, root, blobs[0]);
      var next := DownloadFile(c, local, blobs[0], target).local;
      assert next == local[target := c[blobs[0]]];
      assert forall i :: 0 <= i < |blobs| - 1 ==> blobs[1..][i] == blobs[i + 1];
      DownloadAllContents(c, next, storagePath, root, blobs[1..]);
      var r := DownloadAll(c, local, storagePath, root, blobs);
      forall i | 0 <= i < |blobs|
        ensures FolderTarget(storagePath, root, blobs[i]) in r && r[FolderTarget(storagePath, root, blobs[i])] == c[blobs[i]]
      {
        if i > 0 {
          assert blobs[i] == blobs[1..][i - 1];
        } else if exists j :: 0 <= j < |blobs| - 1 && target == FolderTarget(storagePath, root, blobs[1..][j]) {
          var j :| 0 <= j < |blobs| - 1 && target == FolderTarget(storagePath, root, blobs[1..][j]);
          FolderTargetInjective(storagePath, root, blobs[0], blobs[1..][j]);
        }
      }
      forall p | p in r
        ensures p in local || exists i :: 0 <= i < |blobs| && p == FolderTarget(storagePath, root, blobs[i])
      {
        if p !in next {
        } else if p !in local {
          assert p == target;
        }
        if exists j :: 0 <= j < |blobs| - 1 && p == FolderTarget(storagePath, root, blobs[1..][j]) {
          var j :| 0 <= j < |blobs| - 1 && p == FolderTarget(storagePath, root, blobs[1..][j]);
          assert blobs[1..][j] == blobs[j + 1];
        }
      }
      forall p | p in local && (forall i :: 0 <= i < |blobs| ==> p != FolderTarget(storagePath, root, blobs[i]))
        ensures p in r && r[p] == local[p]
      {
        forall i | 0 <= i < |blobs| - 1
          ensures p != FolderTarget(storagePath, root, blobs[1..][i])
        {
          assert blobs[1..][i] == blobs[i + 1];
        }
      }
    }
  }

  /** A folder download reaches every blob under the prefix: with the local
      paths all having a directory part, the code as written raises nothing
      and each blob under the prefix ends up at its folder target with its
      content. */
  lemma DownloadFolderContents(c: Container, local: LocalFiles, storagePath: string, root: string, blobs: seq<string>)
    requires IsListing(c, storagePath, blobs) && Listed(c, storagePath, blobs)
    requires forall i :: 0 <= i < |blobs| ==> '/' in FolderTarget(storagePath, root, blobs[i])
    ensures DownloadAllAsWritten(c, local, storagePath, root, blobs).error.None?
    ensures forall k :: k in c && Strings.StartsWith(k, storagePath) ==>
              FolderTarget(storagePath, root, k) in DownloadAllAsWritten(c, local, storagePath, root, blobs).local
              && DownloadAllAsWritten(c, local, storagePath, root, blobs).local[FolderTarget(storagePath, root, k)] == c[k]
  {
    DownloadAllAgrees(c, local, storagePath, root, blobs);
    DownloadAllContents(c, local, storagePath, root, blobs);
    forall k | k in c && Strings.StartsWith(k, storagePath)
      ensures exists i :: 0 <= i < |blobs| && blobs[i] == k
    {
      assert k in PrefixKeys(c, storagePath);
      assert k in blobs;
    }
  }

  /** The blobs of a list all exist and sit under the prefix, as the blobs
      of a listing do. */
  ghost predicate Listed(c: Container, prefix: string, blobs: seq<string>) {
    forall i :: 0 <= i < |blobs| ==> blobs[i] in c && Strings.StartsWith(blobs[i], prefix)
  }

  /** As written, downloading the folder "data/" into "out" fails on its
      blob "data/x.json": the local path "outx.json" has no directory part,
      so `os.makedirs("")` raises and nothing is written. */
  lemma FolderIntoBareRootFails(c: Container, local: LocalFiles, storagePath: string, root: string, name: string)
    requires storagePath == "data/" && root == "out" && name == "data/x.json" && name in c
    ensures Strings.StartsWith(name, storagePath)
    ensures DownloadAllAsWritten(c, local, storagePath, root, [name]) == Download(local, Some(NoSuchPath("")))
  {
    assert name[..|storagePath|] == storagePath;
    assert FolderTarget(storagePath, root, name) == "outx.json";
    DownloadAllAsWrittenError(c, local, storagePath, root, [name], 0);
  }

  /** As written, the inner `download_file` calls of `download_folder` are
      not handed its `container_name`, so they fetch from the default
      container. A blob listed in the named container but absent from the
      default one raises the not-found error and leaves an empty file at
      its target; fetching from the listed container, as intended, writes
      the blob. */
  lemma FolderFetchedFromDefaultContainer(named: Container, fallback: Container, local: LocalFiles, storagePath: string, root: string, name: string)
    requires storagePath == "data/" && root == "out/" && name == "data/x.json"
    requires IsListing(named, storagePath, [name]) && name !in fallback
    ensures Strings.StartsWith(name, storagePath) && name in named
    ensures DownloadAllAsWritten(fallback, local, storagePath, root, [name])
         == Download(local["out/x.json" := Encoded("")], Some(BlobNotFound(name)))
    ensures DownloadAllAsWritten(named, local, storagePath, root, [name])
         == Download(local["out/x.json" := named[name]], None)
  {
    assert name[..|storagePath|] == storagePath;
    assert name in PrefixKeys(named, storagePath);
    assert FolderTarget(storagePath, root, name) == "out/x.json";
    assert Dirname("out/x.json") != "" by {
      assert "out/x.json"[3] == '/';
    }
    assert [name][1..] == [];
  }
}

=== FILE: StorageClients.dfy ===
/** The blob-service client cache of src/shared/storage.py:
    `BlobServiceManager.get_blob_service_client` and the client part of
    `with_container_setup_teardown`. Clients are opaque numbers handed out
    in order; the manager remembers the cached one and which were closed. */
module StorageClients {
  import opened Wrappers

  /** The class attribute `_cached_blob_service_client`, the number of
      clients created so far, and the clients closed so far. */
  datatype Manager = Manager(cached: Option<nat>, issued: nat, closed: set<nat>)

  /** No client yet. */
  const Initial := Manager(None, 0, {})

  /** Every client handed out so far is closed, except the cached one;
      only clients handed out are closed. */
  predicate NoLeak(m: Manager) {
    && (forall c :: c in m.closed ==> c < m.issued)
    && (m.cached.Some? ==> m.cached.value < m.issued && m.cached.value !in m.closed)
    && forall c :: 0 <= c < m.issued && c !in m.closed ==> m.cached == Some(c)
  }

  /** `get_blob_service_client(cache_client)`: the cached client when asked
      for and present, otherwise a new one, which becomes the cache when
      caching was asked for. */
  function GetClient(m: Manager, cacheClient: bool): (r: (nat, Manager))
    ensures cacheClient && m.cached.Some? ==> r == (m.cached.value, m)
    ensures !(cacheClient && m.cached.Some?) ==>
              r.0 == m.issued && r.1.issued == m.issued + 1 && r.1.closed == m.closed
              && r.1.cached == if cacheClient then Some(r.0) else m.cached
  {
    if cacheClient && m.cached.Some? then (m.cached.value, m)
    else
      var client := m.issued;
      var m1 := m.(issued := m.issued + 1);
      (client, if cacheClient then m1.(cached := Some(client)) else m1)
  }

  /** The `finally` block as written: without caching, close the client used
      and forget the cache. The forgotten client is not closed. */
  function TeardownAsWritten(m: Manager, client: nat, cacheClient: bool): (r: Manager)
    ensures cacheClient ==> r == m
    ensures !cacheClient ==> r.cached.None? && r.closed == m.closed + {client} && r.issued == m.issued
  {
    if cacheClient then m else m.(closed := m.closed + {client}, cached := None)
  }

  /** The `finally` block with the forgotten cached client closed as well. */
  function Teardown(m: Manager, client: nat, cacheClient: bool): (r: Manager)
    ensures cacheClient ==> r == m
    ensures !cacheClient ==> r.cached.None? && r.issued == m.issued
    ensures !cacheClient ==> r.closed == m.closed + {client} + (if m.cached.Some? then {m.cached.value} else {})
  {
    if cacheClient then m
    else
      var dropped := if m.cached.Some? then {m.cached.value} else {};
      m.(closed := m.closed + {client} + dropped, cached := None)
  }

  /** One decorated storage call, as written: get a client, run the body,
      whose result (a value or an error) is passed through unchanged, and
      tear down whether the body returned or raised. */
  function CallAsWritten<T>(m: Manager, cacheClient: bool, body: nat -> T): (r: (T, nat, Manager))
    ensures r.0 == body(r.1)
    ensures !cacheClient ==> r.1 == m.issued && r.1 in r.2.closed && r.2.cached.None?
  {
    var (client, m1) := GetClient(m, cacheClient);
    (body(client), client, TeardownAsWritten(m1, client, cacheClient))
  }

  /** One decorated storage call with the corrected teardown. */
  function Call<T>(m: Manager, cacheClient: bool, body: nat -> T): (r: (T, nat, Manager))
    ensures r.0 == body(r.1)
    ensures cacheClient && m.cached.Some? ==> r.1 == m.cached.value && r.2 == m
    ensures cacheClient && m.cached.None? ==> r.1 == m.issued && r.2.cached == Some(r.1)
    ensures !cacheClient ==> r.1 == m.issued && r.1 in r.2.closed && r.2.cached.None?
  {
    var (client, m1) := GetClient(m, cacheClient);
    (body(client), client, Teardown(m1, client, cacheClient))
  }

  /** With the corrected teardown no client is ever left open without being
      the cache, whatever sequence of calls is made. */
  lemma CallKeepsNoLeak<T>(m: Manager, cacheClient: bool, body: nat -> T)
    requires NoLeak(m)
    ensures NoLeak(Call(m, cacheClient, body).2)
  {
    var (client, m1) := GetClient(m, cacheClient);
    var m2 := Teardown(m1, client, cacheClient);
    forall c | 0 <= c < m2.issued && c !in m2.closed
      ensures m2.cached == Some(c)
    {
      if c < m.issued {
        assert c !in m.closed;
      }
    }
  }

  /** A decorated call whose body makes one decorated call of its own, as
      `download_folder` calls `download_file`, with the `finally` block as
      written: the inner call gets, uses and tears down its client inside
      the outer call, and the outer teardown sees the manager the inner
      call left. The result is the outer client, the inner client and the
      manager afterwards. */
  function NestedAsWritten(m: Manager, outerCache: bool, innerCache: bool): (nat, nat, Manager) {
    var (outer, m1) := GetClient(m, outerCache);
    var (inner, m2) := GetClient(m1, innerCache);
    (outer, inner, TeardownAsWritten(TeardownAsWritten(m2, inner, innerCache), outer, outerCache))
  }

  /** The same nesting with the corrected teardown, which closes the cache
      as it stands when the teardown runs. */
  function Nested(m: Manager, outerCache: bool, innerCache: bool): (nat, nat, Manager) {
    var (outer, m1) := GetClient(m, outerCache);
    var (inner, m2) := GetClient(m1, innerCache);
    (outer, inner, Teardown(Teardown(m2, inner, innerCache), outer, outerCache))
  }

  /** As written, one `download_folder(..., cache_client=False)` on a fresh
      manager leaks by itself: its inner `download_file`, caching by
      default, creates and caches a second client, which the outer teardown
      forgets without closing. */
  lemma NestedLeaksAsWritten()
    ensures NestedAsWritten(Initial, false, true) == (0, 1, Manager(None, 2, {0}))
    ensures !NoLeak(NestedAsWritten(Initial, false, true).2)
  {
    var (outer, m1) := GetClient(Initial, false);
    assert outer == 0 && m1 == Manager(None, 1, {});
    var (inner, m2) := GetClient(m1, true);
    assert inner == 1 && m2 == Manager(Some(1), 2, {});
    assert TeardownAsWritten(m2, 1, true) == m2;
    assert TeardownAsWritten(m2, 0, false) == Manager(None, 2, {0});
  }

  /** With the corrected teardown a nested call leaves no client open
      except the cache, whichever of the two calls caches. */
  lemma NestedKeepsNoLeak(m: Manager, outerCache: bool, innerCache: bool)
    requires NoLeak(m)
    ensures NoLeak(Nested(m, outerCache, innerCache).2)
  {
    var (outer, m1) := GetClient(m, outerCache);
    var (inner, m2) := GetClient(m1, innerCache);
    var m3 := Teardown(m2, inner, innerCache);
    var m4 := Teardown(m3, outer, outerCache);
    forall c | 0 <= c < m4.issued && c !in m4.closed
      ensures m4.cached == Some(c)
    {
      if c < m.issued {
        assert c !in m.closed;
      }
    }
  }

  /** The cached client, once created, is reused by every caching call and
      is never closed by one. */
  lemma CachedClientReused<T>(m: Manager, body: nat -> T)
    requires m.cached.Some?
    ensures Call(m, true, body) == (body(m.cached.value), m.cached.value, m)
  {
  }

  /** The client of a non-caching call is a new one, closed afterwards even
      when the body raised, and the cache is empty after it. */
  lemma FreshClientClosed<T>(m: Manager, body: nat -> T)
    ensures Call(m, false, body).1 == m.issued
    ensures Call(m, false, body).1 in Call(m, false, body).2.closed
    ensures Call(m, false, body).2.cached.None?
  {
  }

  /** As written, a caching call followed by a non-caching one leaves the
      first client open although nothing refers to it any more. */
  lemma TeardownLeaksCachedClient<T>(body: nat -> T)
    ensures var (_, first, m1) := CallAsWritten(Initial, true, body);
            var (_, second, m2) := CallAsWritten(m1, false, body);
            first == 0 && second == 1 && 0 !in m2.closed && m2.cached.None? && !NoLeak(m2)
  {
  }
}

=== FILE: Strings.dfy ===
/** The string operations of Python's `str` that the shared library relies on:
    prefix and suffix tests, `strip()`, ASCII `lower()`, `sep.join(parts)` and
    `s.split(sep)` for a one-character separator. */
module Strings {
  import opened Wrappers

  predicate StartsWith(s: string, prefix: string) {
    |prefix| <= |s| && s[..|prefix|] == prefix
  }

  predicate EndsWith(s: string, suffix: string) {
    |suffix| <= |s| && s[|s| - |suffix|..] == suffix
  }

  /** The characters for which Python's `str.isspace()` holds, i.e. those
      `str.strip()` removes when called without arguments. */
  const SpaceChars: set<char> := {
    ' ', '\t', '\n', '\r', '\U{000B}', '\U{000C}',
    '\U{001C}', '\U{001D}', '\U{001E}', '\U{001F}',
    '\U{0085}', '\U{00A0}', '\U{1680}',
    '\U{2000}', '\U{2001}', '\U{2002}', '\U{2003}', '\U{2004}', '\U{2005}',
    '\U{2006}', '\U{2007}', '\U{2008}', '\U{2009}', '\U{200A}',
    '\U{2028}', '\U{2029}', '\U{202F}', '\U{205F}', '\U{3000}'
  }

  predicate IsSpace(c: char) {
    c in SpaceChars
  }

  predicate AllSpace(s: string) {
    forall i :: 0 <= i < |s| ==> IsSpace(s[i])
  }

  /** The end of the run of whitespace that starts at `k`. */
  function SpaceRunEnd(s: string, k: nat): (n: nat)
    requires k <= |s|
    ensures k <= n <= |s|
    ensures forall i :: k <= i < n ==> IsSpace(s[i])
    ensures n == |s| || !IsSpace(s[n])
    decreases |s| - k
  {
    if k < |s| && IsSpace(s[k]) then SpaceRunEnd(s, k + 1) else k
  }

  /** The start of the run of whitespace that ends at `k`. */
  function SpaceRunStart(s: string, k: nat): (n: nat)
    requires k <= |s|
    ensures n <= k
    ensures forall i :: n <= i < k ==> IsSpace(s[i])
    ensures n == 0 || !IsSpace(s[n - 1])
  {
    if k > 0 && IsSpace(s[k - 1]) then SpaceRunStart(s, k - 1) else k
  }

  /** `s.lstrip()`: the suffix of `s` left after its leading whitespace. */
  function StripStart(s: string): (r: string)
    ensures |r| <= |s| && AllSpace(s[..|s| - |r|])
    ensures r == [] || !IsSpace(r[0])
  {
    s[SpaceRunEnd(s, 0)..]
  }

  /** `s.rstrip()`: the prefix of `s` left after its trailing whitespace. */
  function StripEnd(s: string): (r: string)
    ensures |r| <= |s| && AllSpace(s[|r|..])
    ensures r == [] || !IsSpace(r[|r| - 1])
  {
    s[..SpaceRunStart(s, |s|)]
  }

  /** `s.strip()`: `s` without leading and trailing whitespace. It is empty
      exactly when `s` holds nothing but whitespace. */
  function Strip(s: string): (r: string)
    ensures r == [] || (!IsSpace(r[0]) && !IsSpace(r[|r| - 1]))
    ensures r == [] <==> AllSpace(s)
  {
    StripEmpty(s);
    StripEnd(StripStart(s))
  }

  lemma StripEmpty(s: string)
    ensures StripEnd(StripStart(s)) == [] <==> AllSpace(s)
  {
    var a := SpaceRunEnd(s, 0);
    var t := s[a..];
    assert StripEnd(StripStart(s)) == t[..SpaceRunStart(t, |t|)];
  }

  /** What `strip()` keeps is a contiguous part of the text, with only
      whitespace cut off on either side. */
  lemma StripInfix(s: string)
    ensures exists a :: 0 <= a <= a + |Strip(s)| <= |s| && Strip(s) == s[a..a + |Strip(s)|]
                        && AllSpace(s[..a]) && AllSpace(s[a + |Strip(s)|..])
  {
    var a := SpaceRunEnd(s, 0);
    var t := s[a..];
    var b := SpaceRunStart(t, |t|);
    assert Strip(s) == t[..b] == s[a..a + b];
    assert s[a + b..] == t[b..];
  }

  function LowerChar(c: char): char {
    if 'A' <= c <= 'Z' then (c as int + 32) as char else c
  }

  /** `s.lower()` restricted to the ASCII letters. */
  function Lower(s: string): (r: string)
    ensures |r| == |s|
    ensures forall i :: 0 <= i < |s| ==> r[i] == LowerChar(s[i])
  {
    seq(|s|, i requires 0 <= i < |s| => LowerChar(s[i]))
  }

  /** The position of the first occurrence of `c` in `s`, if any. */
  function IndexOf(s: string, c: char): (r: Option<nat>)
    ensures r.None? <==> c !in s
    ensures r.Some? ==> r.value < |s| && s[r.value] == c && c !in s[..r.value]
    decreases |s|
  {
    if |s| == 0 then None
    else if s[0] == c then Some(0)
    else match IndexOf(s[1..], c)
      case None => None
      case Some(i) => assert s[..i + 1] == [s[0]] + s[1..][..i]; Some(i + 1)
  }

  /** `sep.join(parts)`. */
  function Join(parts: seq<string>, sep: string): string
    decreases |parts|
  {
    if |parts| == 0 then ""
    else if |parts| == 1 then parts[0]
    else parts[0] + sep + Join(parts[1..], sep)
  }

  /** `s.split(d)` for a one-character separator: the maximal pieces of `s`
      between occurrences of `d`, including empty ones at either end. */
  function Split(s: string, d: char): (parts: seq<string>)
    ensures |parts| >= 1
    ensures forall i :: 0 <= i < |parts| ==> d !in parts[i]
    decreases |s|
  {
    match IndexOf(s, d)
    case None => [s]
    case Some(i) => [s[..i]] + Split(s[i + 1..], d)
  }

  /** Joining the pieces of a split with the separator gives back the input. */
  lemma {:induction false} JoinSplit(s: string, d: char)
    ensures Join(Split(s, d), [d]) == s
    decreases |s|
  {
    match IndexOf(s, d)
    case None =>
    case Some(i) =>
      var rest := Split(s[i + 1..], d);
      JoinSplit(s[i + 1..], d);
      assert Split(s, d) == [s[..i]] + rest;
      assert Join(Split(s, d), [d]) == s[..i] + [d] + s[i + 1..];
      assert s == s[..i] + [d] + s[i + 1..];
  }

  /** Splitting the join of separator-free pieces gives back the pieces. */
  lemma {:induction false} SplitJoin(parts: seq<string>, d: char)
    requires |parts| >= 1
    requires forall i :: 0 <= i < |parts| ==> d !in parts[i]
    ensures Split(Join(parts, [d]), d) == parts
    decreases |parts|
  {
    if |parts| > 1 {
      var s := Join(parts, [d]);
      var tail := Join(parts[1..], [d]);
      assert s == parts[0] + [d] + tail;
      assert s[..|parts[0]|] == parts[0];
      assert s[|parts[0]| + 1..] == tail;
      assert d !in parts[0];
      assert IndexOf(s, d) == Some(|parts[0]|);
      SplitJoin(parts[1..], d);
      assert parts == [parts[0]] + parts[1..];
    }
  }

  /** Joining one more leading piece adds it and a separator in front. */
  lemma JoinCons(p: string, parts: seq<string>, sep: string)
    requires |parts| >= 1
    ensures Join([p] + parts, sep) == p + sep + Join(parts, sep)
  {
    assert ([p] + parts)[1..] == parts;
  }
}

=== FILE: Traceback.dfy ===
/** The `TracebackCleaner` formatter of src/shared/traceback.py: a traceback
    printed without the frames of the in-house decorator, so that a log
    shows the decorated functions and not the wrapper between each pair. */
module Traceback {
  import Strings

  /** The `__name__` every in-house decorator gives its wrapper. */
  const CustomDecoratorName: string := "decorated"

  /** One traceback entry, outermost first: file, line number, function name,
      and the stripped source line (empty when unavailable). */
  datatype Frame = Frame(file: string, line: nat, name: string, text: string)

  /** The exception being formatted: its (qualified) type name and `str(value)`. */
  datatype ExcInfo = ExcInfo(typeName: string, message: string)

  const Header: string := "Traceback (most recent call last except decorators):\n"

  predicate IsDecorator(f: Frame) {
    f.name == CustomDecoratorName
  }

  /** The frames kept, in their original order. */
  function Filter(frames: seq<Frame>): (r: seq<Frame>)
    ensures |r| <= |frames|
    ensures forall i :: 0 <= i < |r| ==> !IsDecorator(r[i]) && r[i] in frames
    decreases |frames|
  {
    if frames == [] then []
    else if IsDecorator(frames[0]) then Filter(frames[1..])
    else [frames[0]] + Filter(frames[1..])
  }

  /** The number of wrapper frames in a traceback. */
  function DecoratorCount(frames: seq<Frame>): nat
    decreases |frames|
  {
    if frames == [] then 0
    else (if IsDecorator(frames[0]) then 1 else 0) + DecoratorCount(frames[1..])
  }

  /** Filtering distributes over concatenation of tracebacks. */
  lemma {:induction false} FilterAppend(a: seq<Frame>, b: seq<Frame>)
    ensures Filter(a + b) == Filter(a) + Filter(b)
    decreases |a|
  {
    if a == [] {
      assert a + b == b;
    } else {
      assert (a + b)[1..] == a[1..] + b;
      FilterAppend(a[1..], b);
    }
  }

  /** Exactly the wrapper frames are dropped. */
  lemma {:induction false} FilterCount(frames: seq<Frame>)
    ensures |Filter(frames)| == |frames| - DecoratorCount(frames)
    decreases |frames|
  {
    if frames != [] {
      FilterCount(frames[1..]);
    }
  }

  /** Every frame that is not a wrapper's is kept. */
  lemma {:induction false} FilterKeeps(frames: seq<Frame>, f: Frame)
    requires f in frames && !IsDecorator(f)
    ensures f in Filter(frames)
    decreases |frames|
  {
    if frames[0] != f {
      assert f in frames[1..];
      FilterKeeps(frames[1..], f);
    }
  }

  /** Kept frames stay in their order: of two frames that are not wrappers,
      the outer one is printed before the inner one. */
  lemma FilterInOrder(frames: seq<Frame>, i: nat, j: nat)
    requires i < j < |frames| && !IsDecorator(frames[i]) && !IsDecorator(frames[j])
    ensures exists k, l :: 0 <= k < l < |Filter(frames)| && Filter(frames)[k] == frames[i] && Filter(frames)[l] == frames[j]
  {
    var before, after := frames[..j], frames[j..];
    assert frames == before + after;
    FilterAppend(before, after);
    assert frames[i] == before[i];
    FilterKeeps(before, frames[i]);
    var k :| 0 <= k < |Filter(before)| && Filter(before)[k] == frames[i];
    assert after[0] == frames[j];
    assert Filter(after)[0] == frames[j];
    var l := |Filter(before)|;
    assert Filter(frames)[k] == frames[i] && Filter(frames)[l] == frames[j];
  }

  /** A traceback without wrapper frames is left as it is. */
  lemma {:induction false} FilterIdentity(frames: seq<Frame>)
    requires forall i :: 0 <= i < |frames| ==> !IsDecorator(frames[i])
    ensures Filter(frames) == frames
    decreases |frames|
  {
    if frames != [] {
      FilterIdentity(frames[1..]);
    }
  }

  /** Cleaning an already cleaned traceback changes nothing. */
  lemma FilterIdempotent(frames: seq<Frame>)
    ensures Filter(Filter(frames)) == Filter(frames)
  {
    FilterIdentity(Filter(frames));
  }

  /** The `while tb is not None` walk over the traceback chain, appending
      every frame whose name is not the decorator's. */
  method CleanFrames(tb: seq<Frame>) returns (filtered: seq<Frame>)
    ensures filtered == Filter(tb)
  {
    filtered := [];
    var i := 0;
    while i < |tb|
      invariant 0 <= i <= |tb|
      invariant filtered == Filter(tb[..i])
    {
      var frame := tb[i];
      FilterAppend(tb[..i], [frame]);
      assert tb[..i + 1] == tb[..i] + [frame];
      if frame.name != CustomDecoratorName {
        filtered := filtered + [frame];
      }
      i := i + 1;
    }
    assert tb[..i] == tb;
  }

  /** The decimal digits of a line number. */
  function NatToString(n: nat): (r: string)
    ensures |r| >= 1
    ensures forall i :: 0 <= i < |r| ==> '0' <= r[i] <= '9'
  {
    if n < 10 then ["0123456789"[n]] else NatToString(n / 10) + ["0123456789"[n % 10]]
  }

  /** One entry of `traceback.format_list`. */
  function FormatFrame(f: Frame): string {
    "  File \"" + f.file + "\", line " + NatToString(f.line) + ", in " + f.name + "\n"
    + (if f.text == "" then "" else "    " + f.text + "\n")
  }

  /** The entries of `frames`, one after another, with no cutoff. */
  function FormatEach(frames: seq<Frame>): string
    decreases |frames|
  {
    if frames == [] then "" else FormatFrame(frames[0]) + FormatEach(frames[1..])
  }

  /** `traceback._RECURSIVE_CUTOFF`: how many identical consecutive entries
      are printed before the rest are summarised. */
  const RecursiveCutoff: nat := 3

  /** Two entries count as the same line when file, line number and function
      name agree; the source text is not compared. */
  predicate Same(f: Frame, g: Frame) {
    f.file == g.file && f.line == g.line && f.name == g.name
  }

  /** The length of the run of entries at the head of `frames` that are the
      same line as the first. */
  function RunLength(frames: seq<Frame>): (n: nat)
    requires frames != []
    ensures 1 <= n <= |frames|
    decreases |frames|
  {
    if |frames| > 1 && Same(frames[1], frames[0]) then 1 + RunLength(frames[1..]) else 1
  }

  /** The run is all the same line, and the entry after it is not. */
  lemma {:induction false} RunLengthRun(frames: seq<Frame>)
    requires frames != []
    ensures forall i :: 0 <= i < RunLength(frames) ==> Same(frames[i], frames[0])
    ensures RunLength(frames) < |frames| ==> !Same(frames[RunLength(frames)], frames[0])
    decreases |frames|
  {
    if |frames| > 1 && Same(frames[1], frames[0]) {
      RunLengthRun(frames[1..]);
      assert forall i :: 1 <= i < RunLength(frames) ==> frames[i] == frames[1..][i - 1];
    }
  }

  /** The line printed after a run of `n` same entries: nothing up to the
      cutoff, else how many further repetitions were left out. */
  function RepeatNote(n: nat): string {
    if n <= RecursiveCutoff then ""
    else
      var more := n - RecursiveCutoff;
      "  [Previous line repeated " + NatToString(more) + " more time" + (if more > 1 then "s" else "") + "]\n"
  }

  /** `"".join(traceback.format_list(frames))`: each run of same entries
      prints at most `RecursiveCutoff` of them, followed by its note. */
  function FormatList(frames: seq<Frame>): string
    decreases |frames|
  {
    if frames == [] then ""
    else
      var n := RunLength(frames);
      FormatEach(frames[..Shown(n)]) + RepeatNote(n) + FormatList(frames[n..])
  }

  /** The run at the head of `frames` is exactly `n` long when its first
      `n` entries are the same line and the next one, if any, is not. */
  lemma {:induction false} RunLengthIs(frames: seq<Frame>, n: nat)
    requires 1 <= n <= |frames|
    requires forall i :: 0 <= i < n ==> Same(frames[i], frames[0])
    requires n < |frames| ==> !Same(frames[n], frames[0])
    ensures RunLength(frames) == n
    decreases n
  {
    if n > 1 {
      assert Same(frames[1], frames[0]);
      assert forall i :: 0 <= i < n - 1 ==> frames[1..][i] == frames[i + 1];
      RunLengthIs(frames[1..], n - 1);
    }
  }

  /** A run never reaches past the end of `a` into a `b` whose first entry
      is not the same line as the last of `a`. */
  lemma RunLengthAppend(a: seq<Frame>, b: seq<Frame>)
    requires a != [] && b != [] && !Same(a[|a| - 1], b[0])
    ensures RunLength(a + b) == RunLength(a)
  {
    var n := RunLength(a);
    RunLengthRun(a);
    if n < |a| {
      assert (a + b)[n] == a[n];
    } else {
      assert Same(a[|a| - 1], a[0]);
      assert (a + b)[n] == b[0];
    }
    assert forall i :: 0 <= i < n ==> (a + b)[i] == a[i];
    RunLengthIs(a + b, n);
  }

  /** Without two same entries in a row nothing is cut: every frame is
      printed once, in order. */
  lemma {:induction false} FormatListDistinct(frames: seq<Frame>)
    requires forall i :: 0 <= i < |frames| - 1 ==> !Same(frames[i], frames[i + 1])
    ensures FormatList(frames) == FormatEach(frames)
    decreases |frames|
  {
    if frames != [] {
      RunLengthIs(frames, 1);
      FormatListHead(frames);
      FormatEachOne(frames[..1]);
      assert forall i :: 0 <= i < |frames| - 2 ==> frames[1..][i] == frames[i + 1];
      FormatListDistinct(frames[1..]);
    }
  }

  /** A single frame prints as its one entry. */
  lemma FormatEachOne(frames: seq<Frame>)
    requires |frames| == 1
    ensures FormatEach(frames) == FormatFrame(frames[0])
  {
    assert FormatEach(frames[1..]) == "";
  }

  /** `n` copies of one frame in a row, as deep recursion leaves them. */
  function Repeat(f: Frame, n: nat): (r: seq<Frame>)
    ensures |r| == n && forall i :: 0 <= i < n ==> r[i] == f
  {
    seq(n, i => f)
  }

  /** A recursion `n` frames deep prints the frame at most `RecursiveCutoff`
      times and then says how many repetitions it left out. */
  lemma FormatListRepeated(f: Frame, n: nat)
    requires n >= 1
    ensures FormatList(Repeat(f, n))
         == FormatEach(Repeat(f, Shown(n))) + RepeatNote(n)
  {
    var frames := Repeat(f, n);
    RunLengthIs(frames, n);
    assert frames[..Shown(n)] == Repeat(f, Shown(n));
    assert frames[n..] == [];
  }

  /** Two runs that do not join are printed independently, so the cutoff
      applies to each run of same entries on its own. */
  lemma {:induction false} FormatListAppend(a: seq<Frame>, b: seq<Frame>)
    requires a != [] && b != [] && !Same(a[|a| - 1], b[0])
    ensures FormatList(a + b) == FormatList(a) + FormatList(b)
    decreases |a|
  {
    var n := RunLength(a);
    var ab := a + b;
    RunLengthAppend(a, b);
    assert ab[..Shown(n)] == a[..Shown(n)];
    assert ab[n..] == a[n..] + b;
    var h := FormatEach(a[..Shown(n)]) + RepeatNote(n);
    FormatListHead(ab);
    assert FormatList(ab) == h + FormatList(a[n..] + b);
    FormatListHead(a);
    assert FormatList(a) == h + FormatList(a[n..]);
    if n < |a| {
      assert a[n..][|a[n..]| - 1] == a[|a| - 1];
      FormatListAppend(a[n..], b);
      var x, y := FormatList(a[n..]), FormatList(b);
      assert FormatList(ab) == h + (x + y);
      Regroup(h, x, y);
    } else {
      assert a[n..] == [];
      assert FormatList(ab) == h + FormatList(b);
      assert FormatList(a) == h;
    }
  }

  /** Printed pieces concatenate in any grouping. */
  lemma Regroup(h: string, x: string, y: string)
    ensures h + (x + y) == (h + x) + y
  {
  }

  /** How many entries of a run of `n` are printed. */
  function Shown(n: nat): nat {
    if n < RecursiveCutoff then n else RecursiveCutoff
  }

  /** The first run of a non-empty traceback and the rest, as printed. */
  lemma FormatListHead(frames: seq<Frame>)
    requires frames != []
    ensures FormatList(frames)
         == FormatEach(frames[..Shown(RunLength(frames))]) + RepeatNote(RunLength(frames)) + FormatList(frames[RunLength(frames)..])
  {
  }

  /** `"".join(traceback.format_exception_only(type, value))`. */
  function ExceptionOnly(exc: ExcInfo): string {
    exc.typeName + (if exc.message == "" then "" else ": " + exc.message) + "\n"
  }

  /** `formatException`: the header when any frame survives the filter, the
      surviving frames, then the exception line. The text always ends with
      the exception line; it opens with the header exactly when a frame was
      kept, and is the bare exception line otherwise. */
  function FormatException(tb: seq<Frame>, exc: ExcInfo): (out: string)
    ensures Strings.EndsWith(out, ExceptionOnly(exc))
    ensures |Filter(tb)| > 0 ==> Strings.StartsWith(out, Header)
    ensures |Filter(tb)| == 0 <==> out == ExceptionOnly(exc)
  {
    var filtered := Filter(tb);
    var frames := FormatList(filtered);
    var head := if |filtered| > 0 then Header else "";
    FormatListEmpty(filtered);
    assert (head + frames + ExceptionOnly(exc))[..|head|] == head;
    head + frames + ExceptionOnly(exc)
  }

  /** Formatting frames gives the empty text exactly when there are none. */
  lemma FormatListEmpty(frames: seq<Frame>)
    ensures FormatList(frames) == "" <==> frames == []
  {
    if frames != [] {
      var n := RunLength(frames);
      assert frames[..Shown(n)][0] == frames[0];
      assert |FormatFrame(frames[0])| > 0;
    }
  }

  /** With frames kept and no line repeated back to back, the text is the
      header, every kept frame once in order, and the exception line. */
  lemma FormatExceptionFrames(tb: seq<Frame>, exc: ExcInfo)
    requires Filter(tb) != []
    requires forall i :: 0 <= i < |Filter(tb)| - 1 ==> !Same(Filter(tb)[i], Filter(tb)[i + 1])
    ensures FormatException(tb, exc) == Header + FormatEach(Filter(tb)) + ExceptionOnly(exc)
  {
    FormatListDistinct(Filter(tb));
  }

  /** A wrapper frame anywhere in the traceback leaves the text unchanged. */
  lemma DecoratorFrameInvisible(before: seq<Frame>, f: Frame, after: seq<Frame>, exc: ExcInfo)
    requires IsDecorator(f)
    ensures FormatException(before + [f] + after, exc) == FormatException(before + after, exc)
  {
    FilterSkipsDecorator(before, f, after);
    FormatSeesOnlyFilter(before + [f] + after, before + after, exc);
  }

  /** The filter drops a wrapper frame wherever it stands. */
  lemma FilterSkipsDecorator(before: seq<Frame>, f: Frame, after: seq<Frame>)
    requires IsDecorator(f)
    ensures Filter(before + [f] + after) == Filter(before + after)
  {
    assert Filter([f]) == [];
    FilterAppend(before, [f]);
    assert Filter(before + [f]) == Filter(before);
    FilterAppend(before + [f], after);
    FilterAppend(before, after);
  }

  /** The text depends on the traceback only through the frames kept. */
  lemma FormatSeesOnlyFilter(tb: seq<Frame>, tb': seq<Frame>, exc: ExcInfo)
    requires Filter(tb) == Filter(tb')
    ensures FormatException(tb, exc) == FormatException(tb', exc)
  {
  }
}

=== FILE: Tracing.dfy ===
/** The `with_logger` decorator of src/shared/logger.py, for one thread.

    A traced call is a tree: the decorated function runs its decorated
    children in order and then returns its own result or raises its own
    error; an error raised by a child propagates out of the parent at once.
    The thread-local `tracing` object is the `Context`; the log is the
    sequence of records the decorator emits. */
module Tracing {
  import opened Wrappers
  import Strings

  /** What a decorated function does once its children have returned. */
  datatype Outcome = Value(result: string) | Fault(error: string)

  /** One decorated function call: its `__name__`, the `repr` of its
      positional and keyword arguments, the decorated calls its body makes,
      how the body ends, and whether the calling body catches an error of
      this call and carries on, as `retry` does around a decorated function. */
  datatype Call = Call(name: string, args: string, kwargs: string, children: seq<Call>, ending: Outcome, caught: bool)

  /** The records "<chain> > start", "<chain> > finish" and
      "<chain> > error, with args=..., kwargs=...". */
  datatype Event = Start(chain: string) | Finish(chain: string) | Error(chain: string, args: string, kwargs: string)

  /** The thread-local `tracing` object: `stack` and `root` are absent until
      the first decorated call on the thread. */
  datatype Context = Context(stack: Option<seq<string>>, root: Option<string>)

  /** A decorated call's result, its log records, and the stack it leaves behind. */
  datatype Trace = Trace(outcome: Outcome, events: seq<Event>, stack: seq<string>)

  /** The children of a call run in order: the first error the body does
      not catch stops the rest. */
  datatype BodyTrace = BodyTrace(fault: Option<string>, events: seq<Event>, stack: seq<string>)

  /** The dotted call chain, `".".join(tracing.stack)`. */
  function Label(stack: seq<string>): string {
    Strings.Join(stack, ".")
  }

  /** The text of a log record. */
  function Message(e: Event): string {
    match e
    case Start(l) => l + " > start"
    case Finish(l) => l + " > finish"
    case Error(l, a, k) => l + " > error, with args=" + a + ", kwargs=" + k
  }

  function Messages(events: seq<Event>): (r: seq<string>)
    ensures |r| == |events|
    ensures forall i :: 0 <= i < |events| ==> r[i] == Message(events[i])
  {
    seq(|events|, i requires 0 <= i < |events| => Message(events[i]))
  }

  /** `decorated(*args, **kwargs)` with the thread's stack already present:
      push the name, log "start", run the body, log "finish" or "error", and
      pop in `finally`. The stack is handed back as it was found, whether the
      call returns or raises; the first record opens and the last closes the
      call under the same label; a returned value is the body's own. */
  function Invoke(stack: seq<string>, c: Call): (t: Trace)
    ensures t.stack == stack
    ensures |t.events| >= 2
    ensures t.events[0] == Start(Label(stack + [c.name]))
    ensures t.outcome.Value? ==>
              t.outcome == c.ending && t.events[|t.events| - 1] == Finish(Label(stack + [c.name]))
    ensures t.outcome.Fault? ==>
              t.events[|t.events| - 1] == Error(Label(stack + [c.name]), c.args, c.kwargs)
    decreases c, 1
  {
    var inner := stack + [c.name];
    var chain := Label(inner);
    var body := InvokeAll(inner, c.children);
    var outcome := if body.fault.Some? then Fault(body.fault.value) else c.ending;
    var last := if outcome.Value? then Finish(chain) else Error(chain, c.args, c.kwargs);
    Trace(outcome, [Start(chain)] + body.events + [last], body.stack[..|body.stack| - 1])
  }

  /** The decorated calls of a body, in order, until one raises an error
      the body does not catch. The stack is handed back unchanged. */
  function InvokeAll(stack: seq<string>, cs: seq<Call>): (t: BodyTrace)
    ensures t.stack == stack
    ensures cs == [] ==> t == BodyTrace(None, [], stack)
    decreases cs, 0
  {
    if cs == [] then BodyTrace(None, [], stack)
    else
      var first := Invoke(stack, cs[0]);
      if Escapes(first, cs[0]) then BodyTrace(Some(first.outcome.error), first.events, first.stack)
      else
        var rest := InvokeAll(first.stack, cs[1..]);
        BodyTrace(rest.fault, first.events + rest.events, rest.stack)
  }

  /** A child's error leaves the body: the child raised and the body does
      not catch it. */
  predicate Escapes(t: Trace, c: Call) {
    t.outcome.Fault? && !c.caught
  }

  /** The body runs to its end exactly when no decorated child's error
      escapes it. */
  lemma {:induction false} InvokeAllCompletes(stack: seq<string>, cs: seq<Call>)
    ensures InvokeAll(stack, cs).fault.None? <==> forall i :: 0 <= i < |cs| ==> !Escapes(Invoke(stack, cs[i]), cs[i])
    decreases |cs|
  {
    if cs != [] && !Escapes(Invoke(stack, cs[0]), cs[0]) {
      InvokeAllCompletes(stack, cs[1..]);
      assert forall i :: 0 <= i < |cs| - 1 ==> cs[1..][i] == cs[i + 1];
    }
  }

  /** When child `i` is the first whose error escapes, that error is the
      body's fault and the children after it never run: the body's log
      ends with its log. */
  lemma {:induction false} InvokeAllFirstFault(stack: seq<string>, cs: seq<Call>, i: nat)
    requires i < |cs| && Escapes(Invoke(stack, cs[i]), cs[i])
    requires forall j :: 0 <= j < i ==> !Escapes(Invoke(stack, cs[j]), cs[j])
    ensures InvokeAll(stack, cs).fault == Some(Invoke(stack, cs[i]).outcome.error)
    ensures InvokeAll(stack, cs) == InvokeAll(stack, cs[..i + 1])
    decreases i
  {
    if i > 0 {
      assert cs[1..][i - 1] == cs[i];
      assert forall j :: 0 <= j < i - 1 ==> cs[1..][j] == cs[j + 1];
      InvokeAllFirstFault(stack, cs[1..], i - 1);
      assert cs[..i + 1][1..] == cs[1..][..i];
      assert cs[..i + 1][0] == cs[0];
    }
  }

  /** A decorated call from whose body no child's error escapes ends as its
      own body does. */
  lemma InvokeReturnsOwnEnding(stack: seq<string>, c: Call)
    requires forall i :: 0 <= i < |c.children| ==> !Escapes(Invoke(stack + [c.name], c.children[i]), c.children[i])
    ensures Invoke(stack, c).outcome == c.ending
  {
    InvokeAllCompletes(stack + [c.name], c.children);
  }

  /** The same exception propagates: when a decorated child raises and the
      body does not catch it, the first such child's error leaves the
      parent, whatever the parent's own body would have done. */
  lemma InvokePropagatesChildError(stack: seq<string>, c: Call, i: nat)
    requires i < |c.children| && Escapes(Invoke(stack + [c.name], c.children[i]), c.children[i])
    requires forall j :: 0 <= j < i ==> !Escapes(Invoke(stack + [c.name], c.children[j]), c.children[j])
    ensures Invoke(stack, c).outcome == Invoke(stack + [c.name], c.children[i]).outcome
  {
    InvokeAllFirstFault(stack + [c.name], c.children, i);
  }

  /** `if not hasattr(tracing, "stack")`: create the empty stack and record
      the root name, only on the thread's first decorated call. */
  function Enter(ctx: Context, name: string): (r: Context)
    ensures r.stack.Some?
  {
    if ctx.stack.None? then Context(Some([]), Some(name)) else ctx
  }

  /** A decorated call as seen from the thread: afterwards the stack exists
      and is what it was before (empty on the first call); the root is set on
      the first call and never reset by later ones. */
  function Traced(ctx: Context, c: Call): (r: (Trace, Context))
    ensures r.1.stack == Some(ctx.stack.GetOr([]))
    ensures r.1.root == if ctx.stack.None? then Some(c.name) else ctx.root
    ensures |r.0.events| >= 2 && r.0.events[0] == Start(Label(ctx.stack.GetOr([]) + [c.name]))
  {
    var entered := Enter(ctx, c.name);
    var t := Invoke(entered.stack.value, c);
    (t, Context(Some(t.stack), entered.root))
  }

  /** Replays a log against a stack of open labels: a start opens its label,
      a finish or error must close the innermost open one. `None` when a
      record closes a label that is not innermost. */
  function Replay(events: seq<Event>, open: seq<string>): Option<seq<string>>
    decreases |events|
  {
    if events == [] then Some(open)
    else match events[0]
      case Start(l) => Replay(events[1..], open + [l])
      case Finish(l) => if |open| > 0 && open[|open| - 1] == l then Replay(events[1..], open[..|open| - 1]) else None
      case Error(l, _, _) => if |open| > 0 && open[|open| - 1] == l then Replay(events[1..], open[..|open| - 1]) else None
  }

  /** Replaying a concatenation replays the parts one after the other. */
  lemma {:induction false} ReplayAppend(a: seq<Event>, b: seq<Event>, open: seq<string>)
    ensures Replay(a + b, open) == if Replay(a, open).Some? then Replay(b, Replay(a, open).value) else None
    decreases |a|
  {
    if a == [] {
      assert a + b == b;
    } else {
      assert (a + b)[1..] == a[1..] + b;
      match a[0]
      case Start(l) => ReplayAppend(a[1..], b, open + [l]);
      case Finish(l) =>
        if |open| > 0 && open[|open| - 1] == l {
          ReplayAppend(a[1..], b, open[..|open| - 1]);
        }
      case Error(l, _, _) =>
        if |open| > 0 && open[|open| - 1] == l {
          ReplayAppend(a[1..], b, open[..|open| - 1]);
        }
    }
  }

  /** The log of any decorated call is well bracketed: every record that
      closes a call closes the innermost open one, with the same label, and
      every call is closed exactly once, on success and on error alike. */
  lemma {:induction false} InvokeBracketed(stack: seq<string>, c: Call, open: seq<string>)
    ensures Replay(Invoke(stack, c).events, open) == Some(open)
    decreases c, 1
  {
    var inner := stack + [c.name];
    var chain := Label(inner);
    var body := InvokeAll(inner, c.children);
    var t := Invoke(stack, c);
    var last := t.events[|t.events| - 1];
    assert t.events == [Start(chain)] + (body.events + [last]);
    assert last.chain == chain;
    InvokeAllBracketed(inner, c.children, open + [chain]);
    ReplayAppend(body.events, [last], open + [chain]);
    assert (open + [chain])[..|open|] == open;
  }

  lemma {:induction false} InvokeAllBracketed(stack: seq<string>, cs: seq<Call>, open: seq<string>)
    ensures Replay(InvokeAll(stack, cs).events, open) == Some(open)
    decreases cs, 0
  {
    if cs != [] {
      var first := Invoke(stack, cs[0]);
      InvokeBracketed(stack, cs[0], open);
      if !Escapes(first, cs[0]) {
        var rest := InvokeAll(first.stack, cs[1..]);
        InvokeAllBracketed(first.stack, cs[1..], open);
        ReplayAppend(first.events, rest.events, open);
      }
    }
  }

  /** A fresh thread: no stack and no root yet. */
  const Fresh := Context(None, None)

  /** A call with no arguments and no decorated children. */
  function Leaf(name: string, ending: Outcome): Call {
    Call(name, "()", "{}", [], ending, false)
  }

  /** A call that makes no decorated calls logs exactly its opening record
      and its closing record. */
  lemma LeafTrace(stack: seq<string>, c: Call)
    requires c.children == []
    ensures Invoke(stack, c).outcome == c.ending
    ensures Invoke(stack, c).events ==
      [Start(Label(stack + [c.name])),
       if c.ending.Value? then Finish(Label(stack + [c.name])) else Error(Label(stack + [c.name]), c.args, c.kwargs)]
  {
  }

  /** A call whose one decorated child returns, and whose body returns,
      logs its opening record, the child's log, and "finish". */
  lemma OneChildTrace(stack: seq<string>, c: Call)
    requires |c.children| == 1 && c.ending.Value?
    requires Invoke(stack + [c.name], c.children[0]).outcome.Value?
    ensures Invoke(stack, c).outcome == c.ending
    ensures Invoke(stack, c).events ==
      [Start(Label(stack + [c.name]))] + Invoke(stack + [c.name], c.children[0]).events + [Finish(Label(stack + [c.name]))]
  {
    var inner := stack + [c.name];
    var first := Invoke(inner, c.children[0]);
    assert c.children[1..] == [];
    assert first.events + [] == first.events;
    assert InvokeAll(inner, c.children) == BodyTrace(None, first.events, inner);
  }

  /** A call whose two decorated children both return or are caught, and
      whose body returns, logs its opening record, the children's logs in
      order, and "finish". */
  lemma TwoChildrenTrace(stack: seq<string>, c: Call)
    requires |c.children| == 2 && c.ending.Value?
    requires !Escapes(Invoke(stack + [c.name], c.children[0]), c.children[0])
    requires !Escapes(Invoke(stack + [c.name], c.children[1]), c.children[1])
    ensures Invoke(stack, c).outcome == c.ending
    ensures Invoke(stack, c).events ==
      [Start(Label(stack + [c.name]))]
      + Invoke(stack + [c.name], c.children[0]).events
      + Invoke(stack + [c.name], c.children[1]).events
      + [Finish(Label(stack + [c.name]))]
  {
    var inner := stack + [c.name];
    var first := Invoke(inner, c.children[0]);
    var second := Invoke(inner, c.children[1]);
    assert c.children[1..] == [c.children[1]];
    assert c.children[1..][1..] == [];
    assert second.events + [] == second.events;
    assert InvokeAll(inner, c.children[1..]) == BodyTrace(None, second.events, inner);
    assert InvokeAll(inner, c.children) == BodyTrace(None, first.events + second.events, inner);
  }

  /** On a fresh thread a decorated call runs on the new empty stack, leaves
      it empty, and records its own name as the root. */
  lemma TracedOnFreshThread(c: Call)
    ensures Traced(Fresh, c) == (Invoke([], c), Context(Some([]), Some(c.name)))
  {
  }

  /** A second decorated call on the same thread keeps the first call's root. */
  lemma RootKeptAcrossCalls(first: Call, second: Call)
    ensures Traced(Traced(Fresh, first).1, second).1 == Context(Some([]), Some(first.name))
  {
  }

  /** The dotted labels of stacks one, two and three deep. */
  lemma Labels(c: string, b: string, a: string)
    ensures Label([c]) == c
    ensures Label([c, b]) == c + "." + b
    ensures Label([c, b, a]) == c + "." + b + "." + a
  {
    Strings.JoinCons(c, [b], ".");
    Strings.JoinCons(b, [a], ".");
    Strings.JoinCons(c, [b, a], ".");
    assert [c] + [b] == [c, b] && [c] + [b, a] == [c, b, a] && [b] + [a] == [b, a];
  }

  /** `c()` calls `b()`, which calls `a()`; all three return. */
  function NestedCalls(c: string, b: string, a: string): Call {
    Call(c, "()", "{}", [Call(b, "()", "{}", [Leaf(a, Value(a))], Value(a), false)], Value(a), false)
  }

  /** Nested calls open outermost first and close innermost first. */
  lemma NestedCallsEvents(c: string, b: string, a: string)
    ensures Invoke([], NestedCalls(c, b, a)).outcome == Value(a)
    ensures Invoke([], NestedCalls(c, b, a)).events
         == [Start(Label([c])), Start(Label([c, b])), Start(Label([c, b, a])),
             Finish(Label([c, b, a])), Finish(Label([c, b])), Finish(Label([c]))]
  {
    var n := NestedCalls(c, b, a);
    var mid := n.children[0];
    assert [] + [c] == [c] && [c] + [b] == [c, b] && [c, b] + [a] == [c, b, a];
    LeafTrace([c, b], mid.children[0]);
    var inner := [Start(Label([c, b, a])), Finish(Label([c, b, a]))];
    assert Invoke([c, b], mid.children[0]).events == inner;
    OneChildTrace([c], mid);
    var middle := [Start(Label([c, b]))] + inner + [Finish(Label([c, b]))];
    assert Invoke([c], mid).events == middle;
    OneChildTrace([], n);
    assert Invoke([], n).events == [Start(Label([c]))] + middle + [Finish(Label([c]))];
  }

  /** The log of nested calls, as the thread's records read. */
  lemma NestedCallsLog(c: string, b: string, a: string)
    ensures Messages(Invoke([], NestedCalls(c, b, a)).events)
         == [c + " > start", c + "." + b + " > start", c + "." + b + "." + a + " > start",
             c + "." + b + "." + a + " > finish", c + "." + b + " > finish", c + " > finish"]
  {
    NestedCallsEvents(c, b, a);
    Labels(c, b, a);
  }

  /** `parent()` calls `a()` and then `b()`; all three return. */
  function SiblingCalls(p: string, a: string, b: string): Call {
    Call(p, "()", "{}", [Leaf(a, Value(a)), Leaf(b, Value(b))], Value(a + b), false)
  }

  /** Sibling calls run one after the other under the same parent label. */
  lemma SiblingCallsEvents(p: string, a: string, b: string)
    ensures Invoke([], SiblingCalls(p, a, b)).outcome == Value(a + b)
    ensures Invoke([], SiblingCalls(p, a, b)).events
         == [Start(Label([p])), Start(Label([p, a])), Finish(Label([p, a])),
             Start(Label([p, b])), Finish(Label([p, b])), Finish(Label([p]))]
  {
    var n := SiblingCalls(p, a, b);
    assert [] + [p] == [p] && [p] + [a] == [p, a] && [p] + [b] == [p, b];
    var first := Invoke([p], n.children[0]);
    var second := Invoke([p], n.children[1]);
    LeafTrace([p], n.children[0]);
    LeafTrace([p], n.children[1]);
    assert first.events == [Start(Label([p, a])), Finish(Label([p, a]))];
    assert second.events == [Start(Label([p, b])), Finish(Label([p, b]))];
    TwoChildrenTrace([], n);
    assert Invoke([], n).events == [Start(Label([p]))] + first.events + second.events + [Finish(Label([p]))];
  }

  /** The log of sibling calls, as the thread's records read. */
  lemma SiblingCallsLog(p: string, a: string, b: string)
    ensures Messages(Invoke([], SiblingCalls(p, a, b)).events)
         == [p + " > start", p + "." + a + " > start", p + "." + a + " > finish",
             p + "." + b + " > start", p + "." + b + " > finish", p + " > finish"]
  {
    SiblingCallsEvents(p, a, b);
    Labels(p, a, a);
    Labels(p, b, b);
  }

  /** `parent()` calls `a()`, catches the error it raises, and then calls
      `b()`, as `retry(suppress=True)` does around a decorated function. */
  function CaughtCalls(p: string, a: string, e: string, b: string): Call {
    Call(p, "()", "{}", [Call(a, "()", "{}", [], Fault(e), true), Leaf(b, Value(b))], Value(b), false)
  }

  /** A caught error is logged under the child's label and the body goes on:
      the next sibling runs and the parent finishes with its own result. */
  lemma CaughtCallsEvents(p: string, a: string, e: string, b: string)
    ensures Invoke([], CaughtCalls(p, a, e, b)).outcome == Value(b)
    ensures Invoke([], CaughtCalls(p, a, e, b)).events
         == [Start(Label([p])), Start(Label([p, a])), Error(Label([p, a]), "()", "{}"),
             Start(Label([p, b])), Finish(Label([p, b])), Finish(Label([p]))]
  {
    var n := CaughtCalls(p, a, e, b);
    assert [] + [p] == [p] && [p] + [a] == [p, a] && [p] + [b] == [p, b];
    var first := Invoke([p], n.children[0]);
    var second := Invoke([p], n.children[1]);
    LeafTrace([p], n.children[0]);
    LeafTrace([p], n.children[1]);
    assert first.events == [Start(Label([p, a])), Error(Label([p, a]), "()", "{}")];
    assert second.events == [Start(Label([p, b])), Finish(Label([p, b]))];
    TwoChildrenTrace([], n);
    assert Invoke([], n).events == [Start(Label([p]))] + first.events + second.events + [Finish(Label([p]))];
  }

  /** A raising call logs its start and then an error record carrying the
      representation of its arguments; the error propagates. */
  lemma RaisingCallEvents(c: Call)
    requires c.children == [] && c.ending.Fault?
    ensures Invoke([], c).outcome == c.ending
    ensures Invoke([], c).events == [Start(c.name), Error(c.name, c.args, c.kwargs)]
  {
    LeafTrace([], c);
    assert [] + [c.name] == [c.name];
    Labels(c.name, c.name, c.name);
  }

  /** The log of a raising call, as the thread's records read. */
  lemma RaisingCallLog(c: Call)
    requires c.children == [] && c.ending.Fault?
    ensures Messages(Invoke([], c).events)
         == [c.name + " > start", c.name + " > error, with args=" + c.args + ", kwargs=" + c.kwargs]
  {
    RaisingCallEvents(c);
  }
}

=== FILE: Wrappers.dfy ===
/** Wrappers shared by every module of the model:
    `Option` for Python's `None`-or-value, `Result` for "returned or raised". */
module Wrappers {

  /** A value that may be absent (Python's `None`). */
  datatype Option<+T> = None | Some(value: T) {

    /** Returns the wrapped value, or `default` when absent. */
    function GetOr(default: T): T {
      match this
      case Some(v) => v
      case None => default
    }
  }

  /** The outcome of an operation that either returns a value or raises an error. */
  datatype Result<+R, +E> = Success(value: R) | Failure(error: E)
}
